=== FILE: README.md ===
# Wellness app core in Dafny

A model of the small pieces of real logic in a screen-time and wellness
application, with proofs of what each of them guarantees:

- **Achievements** (`achievements.dfy`): the fixed table of 27 badges in five categories. Each badge's unlock rule is a predicate over a
  `UserStats` snapshot of ten counters. The module also models the three queries over the table:
  - the unlocked list;
  - the badges of one category;
  - the progress summary with its rounded percentage.
- **Daily streak** (`streak.dfy`): the query that selects one user's daily-stat rows, newest first, and keeps 30 of them; then the
  scan that counts consecutive days back from today whose focus score is at least 50. Dates are integer day numbers.
- **Leaderboard and friends** (`leaderboard.dfy`):
  - the accepted-friendship filter;
  - the left join of "self plus friends" with the stat rows dated today or later, where a missing row scores 0;
  - the `ORDER BY score DESC LIMIT n` and the 1-based ranks.
- **Upserts** (`upsert.dfy`): `createOrUpdateDailyStat` and `createOrUpdateHealthMetric`. Both update the row of that (user, day) in
  place, or append one under a fresh id. They are written once over a generic row type.
- **Screen time by hour** (`screen_time.dfy`): the `GROUP BY hour` with `SUM(durationMinutes)` over one user's entries for one day. It is a
  method with a loop, proved against a declarative description of the groups.
- **Focus timer** (`focus_timer.dfy`): the countdown as a state machine with tick, start/pause and reset, and the `mm:ss` display.
- **Phone input** (`phone_input.dfy`):
  - the country table;
  - the digit sanitiser, which keeps the digits and truncates them to the country's maximum;
  - the display, which removes the dial code;
  - the country switch.
- **Onboarding** (`onboarding.dfy`):
  - the seven-step wizard and the gates on its Continue button;
  - the problem toggle;
  - the signup payload;
  - the lifestyle predictions.

Shared pieces:

- `wrappers.dfy`: `Option`.
- `numeric.dfy`: `Math.round` of a quotient, `Math.max`, `toString` and `padStart` on naturals.
- `seqs.dfy`: filter and subsequence lemmas.
- `schema.dfy`: the table rows.

Database queries become functions over sequences of rows. A query without `ORDER BY` keeps table order; an `ORDER BY` is
modelled as a sort. Clock reads become a `today` parameter. React state becomes
immutable records with transition functions.

Facts about the code that shape the model:

- **Repeated users on the leaderboard.** The left join pairs a user with every stat row dated today or later
  (server/storage.ts:255-261). So a user with several such rows appears several times. `Leaderboard.RowsFor` yields one
  joined row per matching stat row, or a single row scoring 0 when there is none.
- **Missing users.** A friend id with no `users` row is dropped, because the query selects from `users`
  (server/storage.ts:245-262).
- **Default limit.** The leaderboard limit defaults to 10 (server/storage.ts:228; `Leaderboard.GetDefaultLeaderboard`).
- **Fixed threshold.** The streak threshold is the constant 50 (server/storage.ts:334).
- **Capped streak.** The streak query fetches at most 30 rows (server/storage.ts:319), so the streak is at most 30. The
  50- and 100-day badges can therefore never be earned from that streak.
- **Country switch.** The component as written loses the typed number when the country changes (see Findings).
  `PhoneInput.Handle` models it as written. `PhoneInput.HandleCorrected` is the same component with the switch that
  keeps the number.

## Model

| member | source | states |
|---|---|---|
| Achievements.Requirement | client/src/lib/achievements.ts:53-295 | The 27 unlock rules, one per badge, each a threshold or comparison on the stats snapshot. |
| Achievements.AllAchievements | client/src/lib/achievements.ts:45-298 | The badge table: 27 entries in source order, each with its category, tier, title and rule. |
| Achievements.CalculateUnlocked | client/src/lib/achievements.ts:300-302 | The unlocked list holds exactly the table entries whose rule holds. It keeps table order (a subsequence of the table) and has no duplicates. |
| Achievements.UnlockedIsUnique | client/src/lib/achievements.ts:300-302 | Any order-preserving selection of the table that holds exactly the rule-satisfying entries is the unlocked list. |
| Achievements.UnlockedIff | client/src/lib/achievements.ts:45-298 | A badge is in the unlocked list if and only if its rule holds on the stats. |
| Achievements.TableIsIndexed | client/src/lib/achievements.ts:45-298 | The table has 27 entries, one per badge id, at that id's position, so no entry repeats. |
| Achievements.GetAchievementsByCategory | client/src/lib/achievements.ts:304-306 | The category query returns exactly the table entries of that category, in table order, without duplicates. |
| Achievements.CategoriesAreBlocks | client/src/lib/achievements.ts:45-298 | Entry i belongs to category c if and only if i lies in c's contiguous block of the table. |
| Achievements.CategoryIsBlock | client/src/lib/achievements.ts:304-306 | Each category query returns precisely its block of the table. |
| Achievements.CategoriesPartitionTable | client/src/lib/achievements.ts:45-298 | The five category queries have 7, 6, 5, 5 and 4 entries. Concatenated in category order, they give back the whole table. |
| Achievements.GetAchievementProgress | client/src/lib/achievements.ts:308-319 | The total is 27 and the unlocked count is the length of the unlocked list. The percentage is the nearest integer to 100·unlocked/27 and lies in 0..100. It is 100 iff every rule holds and 0 iff none holds. |
| Achievements.PercentageExtremes | client/src/lib/achievements.ts:317 | Out of 27, rounding gives 100% only for 27 badges and 0% only for none. |
| Achievements.TiersStack | client/src/lib/achievements.ts:53-295 | In every tier ladder, unlocking a higher badge means every lower badge of that ladder is unlocked too. The ladders are streak count, referrals, active referrals, sessions, score, under goal and days under goal. |
| Achievements.CenturyUnlocksStreakLadder | client/src/lib/achievements.ts:53-89 | A streak of 100 or more unlocks all five streak-count badges. |
| Achievements.ComebackExcludesUnstoppable | client/src/lib/achievements.ts:98-107 | "Comeback Kid" and "Unstoppable" are never unlocked together. |
| Achievements.ComebackKidIff | client/src/lib/achievements.ts:98 | "Comeback Kid" is unlocked iff the streak is at least 7 and below the longest streak. |
| Achievements.UnstoppableIff | client/src/lib/achievements.ts:107 | "Unstoppable" is unlocked iff the streak is at least 14 and equals the longest streak. |
| Achievements.DigitalMinimalistIff | client/src/lib/achievements.ts:268-295 | "Digital Minimalist" is unlocked iff the goal is positive and at least twice today's minutes. It implies "Under Goal", and "Under Goal" needs a positive goal. |
| Achievements.ZeroStatsUnlockNothing | client/src/lib/achievements.ts:53-319 | All-zero stats unlock no badge and give 0% progress. |
| Achievements.UnlockIsMonotonic | client/src/lib/achievements.ts:53-295 | Every badge except the two streak-comparison badges stays unlocked when the counters grow. Here "grow" means no counter decreases, the goal is the same and today's minutes do not increase. |
| Achievements.StreakComparisonExamples | client/src/lib/achievements.ts:98-107 | Streak 7 with longest 10 unlocks "Comeback Kid" but not "Unstoppable". Streak 14 with longest 14 is the reverse. |
| Streak.Fetch | server/storage.ts:314-319 | The query yields exactly the newest min(n, 30) rows, as a prefix of the newest-first list. |
| Streak.ScanStreak | server/storage.ts:323-341 | The scan returns n such that row i is dated today − i with score ≥ 50 for every i < n, and row n (if any) is not. |
| Streak.UserRows | server/storage.ts:314-318 | The query yields every row of the user, each as often as the table holds it, and no other row, ordered newest first. |
| Streak.SortNewestFirst | server/storage.ts:318 | The `ORDER BY date DESC` yields a permutation of its input in which no row is dated after an earlier one. |
| Streak.GetUserStreak | server/storage.ts:313-342 | On a snapshot of the table, the streak is the scan of the user's 30 newest rows and is at most 30. It is 0 unless some row of the user is dated today with score ≥ 50. A positive streak means no row of the user is dated after today. |
| Streak.StreakStartsToday | server/storage.ts:327-339 | A streak of one or more starts at the user's newest row, which is dated today and qualifies; every other row of the user is dated today or earlier. |
| Streak.OtherUsersIgnored | server/storage.ts:317 | Adding another user's row leaves the user's query result unchanged. |
| Streak.StreakIsUnique | server/storage.ts:327-339 | Only one length meets the scan's characterisation, so the result is determined. |
| Streak.BreakAtGivesStreak | server/storage.ts:334-338 | A gap or a low score at position k, after k good days, gives a streak of exactly k. |
| Streak.StreakIgnoresTail | server/storage.ts:336-338 | Rows after the one that breaks the run are never examined: changing them leaves the streak as it is. |
| Streak.StreakCappedByWindow | server/storage.ts:319 | With more than 30 consecutive good days, the streak is exactly 30. |
| Streak.ExampleStreakOfTwo | server/storage.ts:327-339 | Scores 80 today, 60 yesterday and 40 the day before give a streak of 2. |
| Upsert.FindRow | server/storage.ts:294-311 | The lookup returns the first row of that user and day, or reports that there is none. The health-metric lookup at server/storage.ts:179-196 is the same. |
| Upsert.CreateOrUpdate | server/storage.ts:274-292 | An existing (user, day) row is overwritten in place and keeps its id; the row count and counter are unchanged. Otherwise exactly one row is appended under the next id. Either way the returned row is the table's (user, day) row with the submitted fields. |
| Upsert.CreateOrUpdateDailyStat | server/storage.ts:274-292 | On the daily-stat table: the returned row is in the table with the submitted user, day and columns, and the table grows by at most one row. |
| Upsert.CreateOrUpdateHealthMetric | server/storage.ts:159-177 | On the health-metric table: the returned row is in the table with the submitted user, day and columns, and the table grows by at most one row. |
| Upsert.FindAppended | server/storage.ts:285-290 | After an insert, the lookup finds the new row at the end. |
| Upsert.OtherRowsUntouched | server/storage.ts:278-291 | Rows of other users or other days keep their positions and contents. |
| Upsert.UpsertPreservesInvariants | server/storage.ts:274-292 | One call at a time preserves distinct ids below the counter and at most one row per (user, day). |
| Upsert.UpsertIdempotent | server/storage.ts:274-292 | Submitting the same values twice leaves the table as after the first submission. |
| ScreenTime.EntriesOfDay | server/storage.ts:146-151 | The day's entries are the table's entries of that user and day, in table order (a subsequence of the table), each as many times as the table holds it. |
| ScreenTime.ScreenTimeByHour | server/storage.ts:134-156 | There is one group per distinct hour among the day's entries, and no other hour. Each group's minutes are the sum over that hour's entries. The groups' minutes add up to the day's total. |
| ScreenTime.AddEntryKeepsGroups | server/storage.ts:143-153 | Folding one more entry into correct groups gives correct groups for the longer entry list. |
| ScreenTime.AddEntryAddsMinutes | server/storage.ts:143 | Folding an entry in adds exactly its minutes to the grand total. |
| ScreenTime.MinutesOfAbsentHour | server/storage.ts:143-153 | An hour with no entries sums to 0 minutes. |
| Leaderboard.FriendIds | server/storage.ts:233-241 | Every id listed is the target of an accepted edge from the user, and every such target is listed. |
| Leaderboard.GetUserFriends | server/storage.ts:207-226 | A user is returned iff it is in the users table and is the target of an accepted edge from the user. It occurs once per pair of its table row and an accepted edge to it. |
| Leaderboard.FriendsStep | server/storage.ts:216-223 | One more accepted edge to a user adds one more copy of each of that user's table rows; other users' counts are unchanged. |
| Leaderboard.FriendsMembers | server/storage.ts:216-223 | With those counts, a user is in the result iff it is in the table and some accepted edge reaches it. |
| Leaderboard.CandidateIds | server/storage.ts:243 | The candidates start with the user and then hold exactly the accepted friends. |
| Leaderboard.TodayScores | server/storage.ts:255-261 | One score per stat row of the user dated today or later, in table order: the i-th score is the focus score of the i-th such row. The list is empty iff there is no such row. |
| Leaderboard.RowsFor | server/storage.ts:252-261 | A user's joined rows are one row per matching stat row, carrying its focus score in table order. With no matching row there is exactly one row, scoring 0 (`COALESCE`). |
| Leaderboard.Joined | server/storage.ts:245-262 | The join holds exactly the (candidate user, possible score) pairs over the users table. The rows of each user are that user's joined rows repeated once per occurrence in the users table when the user is a candidate, and none otherwise. |
| Leaderboard.JoinedStep | server/storage.ts:245-262 | One more user-table row adds one more copy of that user's joined rows when it is a candidate, and leaves every other user's rows as they were. |
| Leaderboard.Insert | server/storage.ts:263 | Inserting into a score-descending list keeps it descending and adds exactly the one row. |
| Leaderboard.SortByScore | server/storage.ts:263 | The sort gives a score-descending permutation of the joined rows. |
| Leaderboard.Rank | server/storage.ts:263-270 | The result length is min(limit, rows). Ranks are 1..n in output order and scores do not increase. Every standing comes from the join, taken as a sub-multiset. |
| Leaderboard.RankTop | server/storage.ts:264-270 | The first min(limit, n) sorted rows, numbered 1, 2, … in order. |
| Leaderboard.GetLeaderboard | server/storage.ts:228-271 | Every standing is the user or an accepted friend, from the users table, with a score its stat rows allow. Ranks are 1..n, scores do not increase, and the length is min(limit, joined rows). The standings are the top rows of the join: every joined row left out scores no higher than any standing kept. |
| Leaderboard.StandingsOfJoin | server/storage.ts:245-262 | A standing taken from the join is the user or an accepted friend, listed in the users table, with a score its stat rows allow. |
| Leaderboard.GetDefaultLeaderboard | server/storage.ts:228 | Without a limit argument, at most 10 standings come back, and exactly 10 when the join has at least 10 rows. |
| Leaderboard.RankKeepsTop | server/storage.ts:263-264 | Every row the limit cuts off scores no higher than every row kept. |
| Leaderboard.SortedWithoutTiesIsUnique | server/storage.ts:263 | Without equal scores, any two score-descending arrangements of the same rows are identical. |
| Leaderboard.RankWithoutTies | server/storage.ts:263-270 | Without equal scores, the standings are the rows in score order, numbered. |
| Leaderboard.RankExample | server/storage.ts:263-270 | Scores 78, 92, 72 and 85 are ranked 92, 85, 78, 72 as 1, 2, 3, 4. |
| FocusTimer.Init | client/src/components/FocusTimer.tsx:9-11 | The timer starts paused with initialMinutes·60 seconds. |
| FocusTimer.Tick | client/src/components/FocusTimer.tsx:13-21 | A firing takes one second off only while running with time left, and otherwise changes nothing. It never makes the countdown negative. |
| FocusTimer.TicksCountDown | client/src/components/FocusTimer.tsx:13-21 | n firings on a running timer leave max(0, seconds − n), still running. |
| FocusTimer.PausedTimerHolds | client/src/components/FocusTimer.tsx:15-19 | A paused timer is unchanged by any number of firings. |
| FocusTimer.Toggle | client/src/components/FocusTimer.tsx:43 | Start/pause flips the running flag and keeps the seconds. |
| FocusTimer.ToggleTwiceRestores | client/src/components/FocusTimer.tsx:43 | Pressing start/pause twice leaves the timer as it was. |
| FocusTimer.Reset | client/src/components/FocusTimer.tsx:29-32 | Reset gives back the initial state from any state. |
| FocusTimer.ResetIsIdempotent | client/src/components/FocusTimer.tsx:29-32 | Pressing reset twice is the same as pressing it once. |
| FocusTimer.RunKeepsValid | client/src/components/FocusTimer.tsx:13-32 | No sequence of firings and button presses makes the countdown negative or changes the duration. |
| FocusTimer.ReachableIsValid | client/src/components/FocusTimer.tsx:9-32 | Every state reachable from mounting has a non-negative countdown. |
| FocusTimer.FormatTime | client/src/components/FocusTimer.tsx:23-27 | The display reads back as the seconds shown. Its form is at-least-two-digit minutes, a colon, and two-digit seconds below 60. It is five characters long below 100 minutes. At 100 minutes or more it has no leading zero. |
| FocusTimer.TwoDigits | client/src/components/FocusTimer.tsx:26 | The padded numeral is all digits, at least two of them, and reads back as the number. It is exactly two below 100, and has no leading zero from 10 up. |
| FocusTimer.FormatIsInjective | client/src/components/FocusTimer.tsx:23-27 | Different times never render alike. |
| FocusTimer.TwoDigitsOf | client/src/components/FocusTimer.tsx:26 | A two-digit numeral is what the zero-padding gives for its value. |
| FocusTimer.DefaultDisplay | client/src/components/FocusTimer.tsx:9-27 | The default 25 minutes renders as "25:00". |
| PhoneInput.Countries | client/src/components/PhoneInput.tsx:6-17 | The ten selectable countries with their dial codes and number lengths, in display order. |
| PhoneInput.CountriesWellFormed | client/src/components/PhoneInput.tsx:6-17 | Every country has a dial code of "+" and digits, and 0 < minLength ≤ maxLength. No two countries share a dial code. |
| PhoneInput.InitialCountry | client/src/components/PhoneInput.tsx:36 | The initial country is +1 with 10 digits. |
| PhoneInput.FindCountry | client/src/components/PhoneInput.tsx:39 | The lookup returns a table entry with that code, or None when no entry has it. |
| PhoneInput.DigitsOf | client/src/components/PhoneInput.tsx:48 | The digit filter keeps exactly the digits of the input, in order and with their repeats: it is the input filtered by `IsDigit`, a subsequence of it. |
| PhoneInput.NumberChange | client/src/components/PhoneInput.tsx:47-51 | The value is the dial code followed by a prefix of the typed digits. The prefix is min(#digits, maxLength) long and is all digits. |
| PhoneInput.SanitiserIsIdempotent | client/src/components/PhoneInput.tsx:48-50 | An all-digit input within maxLength is reproduced after the dial code. |
| PhoneInput.IndexOfFrom | client/src/components/PhoneInput.tsx:53 | The search finds the first occurrence from the start position, or reports that there is none. |
| PhoneInput.ReplaceFirst | client/src/components/PhoneInput.tsx:53 | Only the first occurrence of the pattern is replaced. Without one, the string is unchanged. |
| PhoneInput.DisplayNumber | client/src/components/PhoneInput.tsx:53 | A value that starts with the dial code displays as the rest of the value. A value without the code displays unchanged. |
| PhoneInput.DisplayRoundTrip | client/src/components/PhoneInput.tsx:53 | The display of code + d is d. |
| PhoneInput.RetypeDisplayIsStable | client/src/components/PhoneInput.tsx:47-53 | Re-typing what is displayed gives back the same value. |
| PhoneInput.StripLeadingDialRun | client/src/components/PhoneInput.tsx:42 | The regex removes a "+" and the whole run of digits after it. What remains does not start with a digit. Without a leading "+digit", the value is unchanged. |
| PhoneInput.CountryChange | client/src/components/PhoneInput.tsx:38-45 | An unknown code changes nothing. A known code selects that country and emits the code followed by the value with its leading "+digits" run removed. |
| PhoneInput.CountryChangeDropsNumber | client/src/components/PhoneInput.tsx:42-43 | On any value the number handler produced, the switch emits only the new dial code. |
| PhoneInput.CountryChangeCounterexample | client/src/components/PhoneInput.tsx:42-43 | Typing 5551234567 under +1 and switching to +44 emits "+44": the number is lost. |
| PhoneInput.CountryChangeKeepingNumber | client/src/components/PhoneInput.tsx:38-45 | The corrected switch: None for an unknown code. Otherwise it selects the country with that code. |
| PhoneInput.SwitchKeepsNumber | client/src/components/PhoneInput.tsx:42-53 | After the corrected switch, the display shows the same digits as before. |
| PhoneInput.Handle | client/src/components/PhoneInput.tsx:38-51 | The component as written. Typing keeps the country and displays the typed digits, cut to the maximum length. An unknown code changes nothing. A known code selects that country. |
| PhoneInput.TypeThenSwitchClearsNumber | client/src/components/PhoneInput.tsx:38-51 | In the component as written, typing a number and then choosing a listed country leaves only the new dial code, and the display is empty. |
| PhoneInput.HandleCorrected | client/src/components/PhoneInput.tsx:38-51 | The component with the corrected switch. Typing is as written. A known code selects that country and leaves the displayed number unchanged. |
| PhoneInput.TypeThenSwitchKeepsNumber | client/src/components/PhoneInput.tsx:38-53 | With the corrected switch, after typing and choosing a listed country, the display shows the typed digits. |
| PhoneInput.HandleKeepsConsistent | client/src/components/PhoneInput.tsx:36-45 | Under either switch, the selected country is always a table entry. |
| Onboarding.InitialData | client/src/pages/OnboardingPage.tsx:52-60 | The form starts empty, with 4 hours, no problems, 10000 steps and 30 active minutes. |
| Onboarding.NextStep | client/src/pages/OnboardingPage.tsx:91-95 | Next moves one step forward below step 7 and does nothing at 7. It keeps the step in 1..7. |
| Onboarding.PressNextStops | client/src/pages/OnboardingPage.tsx:48-95 | n presses from step 1 reach step min(1 + n, 7). |
| Onboarding.ToggleProblem | client/src/pages/OnboardingPage.tsx:101-108 | The toggled id is selected iff it was not. Other ids keep their selection, and a duplicate-free list stays duplicate-free. |
| Onboarding.ToggleTwiceAbsent | client/src/pages/OnboardingPage.tsx:101-108 | Selecting and deselecting an unselected id gives back the very same list. |
| Onboarding.ToggleTwiceSameSet | client/src/pages/OnboardingPage.tsx:101-108 | Toggling any id twice restores the selected set. |
| Onboarding.TrimStart | client/src/pages/OnboardingPage.tsx:181 | Only white space is removed from the front, and the result does not start with white space. |
| Onboarding.TrimEnd | client/src/pages/OnboardingPage.tsx:181 | Only white space is removed from the back, and the result does not end with white space. |
| Onboarding.Trim | client/src/pages/OnboardingPage.tsx:181 | The trimmed string is a slice of the input with only white space cut off at either end. It neither starts nor ends with white space. |
| Onboarding.TrimStartEndSlice | client/src/pages/OnboardingPage.tsx:181 | Cutting white space from the front and then from the back leaves the slice of the input that starts where the front cut ended, with only white space after it. |
| Onboarding.TrimEmptyIff | client/src/pages/OnboardingPage.tsx:181 | The trimmed name is empty iff the name is all white space. |
| Onboarding.NameGate | client/src/pages/OnboardingPage.tsx:181 | Step 2 may continue iff the name has a character that is not white space. |
| Onboarding.AccountGate | client/src/pages/OnboardingPage.tsx:231 | Step 3 may continue iff the username is non-empty and the password has at least 6 characters. |
| Onboarding.ProblemsGate | client/src/pages/OnboardingPage.tsx:329 | Step 5 may continue iff at least one problem is selected. |
| Onboarding.CanContinue | client/src/pages/OnboardingPage.tsx:172-333 | Continue is enabled iff the gate of the current step holds. Steps other than 2, 3 and 5 never disable it. |
| Onboarding.Apply | client/src/pages/OnboardingPage.tsx:91-392 | The step changes only by an enabled Continue, to the next step. Continue never edits the form. |
| Onboarding.ApplyKeepsReachable | client/src/pages/OnboardingPage.tsx:172-392 | Every event keeps the invariant of reachable screens: step in range, slider values in range, no duplicate problems, and the gates of passed steps still hold. |
| Onboarding.RunKeepsReachable | client/src/pages/OnboardingPage.tsx:48-392 | Any sequence of events keeps that invariant. |
| Onboarding.DailyScreenTimeGoal | client/src/pages/OnboardingPage.tsx:68 | The goal is a positive whole number of hours, in minutes, at least 60. It is (h − 1)·60 from two hours up, and within 60..900 over the slider's range. |
| Onboarding.GoalBelowUsage | client/src/pages/OnboardingPage.tsx:68 | From two hours a day the goal is strictly below current usage. At one hour or less it is not. |
| Onboarding.SignupRequest | client/src/pages/OnboardingPage.tsx:62-73 | The request carries the form's fields, the derived goal, and onboardingCompleted = true. |
| Onboarding.SignupFromLastStepIsComplete | client/src/pages/OnboardingPage.tsx:62-99 | A request sent from the last step always carries:<br>- a name that is not blank;<br>- a username and a password of 6 or more characters;<br>- at least one problem, without duplicates;<br>- a goal within 60..900. |
| Onboarding.YearlyHours | client/src/pages/OnboardingPage.tsx:113 | The yearly hours are 365 times the daily hours. |
| Onboarding.MonthlyIncrease | client/src/pages/OnboardingPage.tsx:114 | The monthly figure is the nearest integer to yearly/12. |
| Onboarding.FullDays | client/src/pages/OnboardingPage.tsx:439 | The full-days figure is the nearest integer to yearly/24. |
| Onboarding.DefaultPredictions | client/src/pages/OnboardingPage.tsx:113-114 | At 4 hours a day the figures are 1460 hours a year, 122 a month and 61 days. |
| Onboarding.SleepLoss | client/src/pages/OnboardingPage.tsx:117 | Sleep loss is non-negative. It is 0 exactly up to 3 hours, and (h − 3)·30 above. |
| Onboarding.SleepLossMonotonic | client/src/pages/OnboardingPage.tsx:117 | More screen time never predicts less lost sleep. |
| Onboarding.EyeStrainRisk | client/src/pages/OnboardingPage.tsx:118 | Eye strain is High iff h > 6, Medium iff 4 < h ≤ 6, and Low iff h ≤ 4. |
| Onboarding.EyeStrainMonotonic | client/src/pages/OnboardingPage.tsx:118 | More screen time never predicts a lower risk. |

## Left out

- Query execution, Postgres and Drizzle: tables are sequences of rows. `WHERE`, `IN`, the joins, `GROUP BY`, `ORDER BY` and `LIMIT` are written out as functions over them.
- Streak.UserRows: puts rows of the same date in one particular order, where Postgres leaves that order open. The upsert keeps one row per user and day when its calls do not overlap; overlapping calls can leave such ties (see the next line).
- Upsert.UpsertPreservesInvariants: holds for calls applied one at a time. `createOrUpdateDailyStat` (server/storage.ts:274-292) looks the row up and then updates or inserts, outside any transaction, and the daily-stats table has no unique constraint on (user, date). Two overlapping calls for the same user and day can therefore both insert. Concurrency is not modelled.
- JavaScript `Date` and local-midnight truncation: days are integers. "Dated today" in the leaderboard join is `day >= today`, the query's own condition. The clock is a `today` parameter.
- `Number(x) || 0` on the aggregated columns: the model's columns are already integers.
- The order of the screen-time groups is not stated, since SQL does not fix it. The model lists groups in order of first appearance.
- Leaderboard.Rank: states the order only up to equal scores, because the database does not fix the order among ties. The tie-free case is pinned down by `Leaderboard.RankWithoutTies`.
- Leaderboard.GetLeaderboard: does not claim each user appears once. The query does not guarantee that when a user has more than one stat row dated today or later.
- Upsert.CreateOrUpdate: replaces all data columns of the matched row. The source's `.set(stat)` with a partial object would keep omitted columns.
- HTTP routes, sessions, signup validation, password encoding and the SMS one-time-code service: transport and third-party code around the core.
- The referral and friend-code generator and validator, which are not part of this model.
- React rendering, hooks and `setInterval` timing: the timer is a state machine whose "fire" action stands for one interval callback. The signup mutation's pending state, toasts and navigation are not modelled.
- Floating-point figures: calories burned, miles walked, the onboarding progress percentage and the progress ring.
  - `Math.round` on the integer quotients that are modelled (achievement percentage, monthly hours, full days) is exact rounding half up of the rational value. For the inputs involved, a half never arises except where `Math.round` also rounds up.
- Flags, icons, labels of the problem options, and the mock-data pages and presentational components.
- String lengths: JavaScript counts UTF-16 code units, the model counts characters, which only matters for the 6-character password gate on astral characters.
- The slider inputs are modelled as delivering values within their ranges. `parseInt` of a slider value is not modelled.

## Findings

| source | as written | input that shows it | evidently intended | confidence | as-written member | corrected member |
|---|---|---|---|---|---|---|
| client/src/components/PhoneInput.tsx:42-43 | The country switch removes `^\+\d+` from the value. The number that follows the dial code is also digits, so the regex removes it too and only the new dial code is emitted. | Type 5551234567 with +1 selected (value "+15551234567"), then choose +44: the new value is "+44". | Remove only the current dial code and keep the typed number under the new code ("+445551234567"). | not executed | PhoneInput.CountryChangeCounterexample | PhoneInput.SwitchKeepsNumber |

=== FILE: achievements.dfy ===
/**
 * The achievement rule evaluator: a fixed table of 27 badges in five
 * categories, each unlocked by a predicate over a snapshot of the user's
 * statistics, the unlocked list, the per-category lists and a progress
 * summary.
 */
module Achievements {
  import opened Seqs
  import Numeric

  datatype Category = StreakCategory | Referrals | Focus | Score | ScreenTime

  datatype Tier = Bronze | Silver | Gold | Platinum

  datatype UserStats = UserStats(
    streak: nat,
    totalReferrals: nat,
    activeReferrals: nat,
    totalFocusSessions: nat,
    currentFocusScore: nat,
    avgFocusScore: nat,
    screenTimeMinutes: nat,
    screenTimeGoal: nat,
    daysUnderGoal: nat,
    longestStreak: nat)

  /** Stable keys for the table entries; `Requirement` is keyed by them. */
  datatype AchievementId =
    | FirstWeek | TwoWeeks | MonthlyMaster | FiftyDays | CenturyClub | ComebackKid | Unstoppable
    | FirstFriend | SocialButterfly | Influencer | CommunityBuilder | ActiveNetwork | Mentor
    | FirstFocus | FocusEnthusiast | FocusMaster | FocusLegend | FocusDeity
    | GoodStart | HighlyFocused | Excellence | Perfection | ConsistentPerformer
    | UnderGoal | WeekUnderGoal | MonthUnderGoal | DigitalMinimalist

  datatype Achievement = Achievement(
    id: AchievementId,
    key: string,
    category: Category,
    title: string,
    description: string,
    tier: Tier)

  /** The unlock rule of each badge. */
  predicate Requirement(id: AchievementId, s: UserStats) {
    match id
    case FirstWeek => s.streak >= 7
    case TwoWeeks => s.streak >= 14
    case MonthlyMaster => s.streak >= 30
    case FiftyDays => s.streak >= 50
    case CenturyClub => s.streak >= 100
    case ComebackKid => s.longestStreak > 0 && s.streak >= 7 && s.longestStreak > s.streak
    case Unstoppable => s.longestStreak > 0 && s.streak >= 14 && s.streak == s.longestStreak
    case FirstFriend => s.totalReferrals >= 1
    case SocialButterfly => s.totalReferrals >= 5
    case Influencer => s.totalReferrals >= 10
    case CommunityBuilder => s.totalReferrals >= 25
    case ActiveNetwork => s.activeReferrals >= 5
    case Mentor => s.activeReferrals >= 3
    case FirstFocus => s.totalFocusSessions >= 1
    case FocusEnthusiast => s.totalFocusSessions >= 10
    case FocusMaster => s.totalFocusSessions >= 50
    case FocusLegend => s.totalFocusSessions >= 100
    case FocusDeity => s.totalFocusSessions >= 500
    case GoodStart => s.currentFocusScore >= 50
    case HighlyFocused => s.currentFocusScore >= 70
    case Excellence => s.currentFocusScore >= 90
    case Perfection => s.currentFocusScore >= 95
    case ConsistentPerformer => s.avgFocusScore >= 80
    case UnderGoal => s.screenTimeGoal > 0 && s.screenTimeMinutes < s.screenTimeGoal
    case WeekUnderGoal => s.daysUnderGoal >= 7
    case MonthUnderGoal => s.daysUnderGoal >= 30
    case DigitalMinimalist =>
      s.screenTimeGoal > 0 && (s.screenTimeMinutes as real) <= (s.screenTimeGoal as real) * 0.5
  }

  predicate Holds(a: Achievement, s: UserStats) {
    Requirement(a.id, s)
  }

  /** The category each badge is filed under. */
  function CategoryOf(id: AchievementId): Category {
    match id
    case FirstWeek | TwoWeeks | MonthlyMaster | FiftyDays | CenturyClub | ComebackKid | Unstoppable =>
      StreakCategory
    case FirstFriend | SocialButterfly | Influencer | CommunityBuilder | ActiveNetwork | Mentor =>
      Referrals
    case FirstFocus | FocusEnthusiast | FocusMaster | FocusLegend | FocusDeity =>
      Focus
    case GoodStart | HighlyFocused | Excellence | Perfection | ConsistentPerformer =>
      Score
    case UnderGoal | WeekUnderGoal | MonthUnderGoal | DigitalMinimalist =>
      ScreenTime
  }

  /** The table entry of each badge. */
  function Entry(id: AchievementId): (a: Achievement)
    ensures a.id == id
    ensures a.category == CategoryOf(id)
  {
    Achievement(id, Key(id), CategoryOf(id), Title(id), Description(id), TierOf(id))
  }

  /** The `id` string of each badge. */
  function Key(id: AchievementId): string {
    match id
    case FirstWeek => "first-week"
    case TwoWeeks => "two-weeks"
    case MonthlyMaster => "monthly-master"
    case FiftyDays => "fifty-days"
    case CenturyClub => "century-club"
    case ComebackKid => "comeback-kid"
    case Unstoppable => "unstoppable"
    case FirstFriend => "first-friend"
    case SocialButterfly => "social-butterfly"
    case Influencer => "influencer"
    case CommunityBuilder => "community-builder"
    case ActiveNetwork => "active-network"
    case Mentor => "mentor"
    case FirstFocus => "first-focus"
    case FocusEnthusiast => "focus-enthusiast"
    case FocusMaster => "focus-master"
    case FocusLegend => "focus-legend"
    case FocusDeity => "focus-deity"
    case GoodStart => "good-start"
    case HighlyFocused => "highly-focused"
    case Excellence => "excellence"
    case Perfection => "perfection"
    case ConsistentPerformer => "consistent-performer"
    case UnderGoal => "under-goal"
    case WeekUnderGoal => "week-under-goal"
    case MonthUnderGoal => "month-under-goal"
    case DigitalMinimalist => "digital-minimalist"
  }

  /** The display title of each badge. */
  function Title(id: AchievementId): string {
    match id
    case FirstWeek => "First Week"
    case TwoWeeks => "Two Weeks Strong"
    case MonthlyMaster => "Monthly Master"
    case FiftyDays => "Fifty Days"
    case CenturyClub => "Century Club"
    case ComebackKid => "Comeback Kid"
    case Unstoppable => "Unstoppable"
    case FirstFriend => "First Friend"
    case SocialButterfly => "Social Butterfly"
    case Influencer => "Influencer"
    case CommunityBuilder => "Community Builder"
    case ActiveNetwork => "Active Network"
    case Mentor => "Mentor"
    case FirstFocus => "First Focus"
    case FocusEnthusiast => "Focus Enthusiast"
    case FocusMaster => "Focus Master"
    case FocusLegend => "Focus Legend"
    case FocusDeity => "Focus Deity"
    case GoodStart => "Good Start"
    case HighlyFocused => "Highly Focused"
    case Excellence => "Excellence"
    case Perfection => "Near Perfection"
    case ConsistentPerformer => "Consistent Performer"
    case UnderGoal => "Under Goal"
    case WeekUnderGoal => "Week Under Goal"
    case MonthUnderGoal => "Month Under Goal"
    case DigitalMinimalist => "Digital Minimalist"
  }

  /** The description shown under each badge. */
  function Description(id: AchievementId): string {
    match id
    case FirstWeek => "Maintain a 7-day streak"
    case TwoWeeks => "Maintain a 14-day streak"
    case MonthlyMaster => "Maintain a 30-day streak"
    case FiftyDays => "Maintain a 50-day streak"
    case CenturyClub => "Maintain a 100-day streak"
    case ComebackKid => "Rebuild a 7-day streak after losing one"
    case Unstoppable => "Your current streak matches your longest ever (14+ days)"
    case FirstFriend => "Refer your first friend"
    case SocialButterfly => "Refer 5 friends"
    case Influencer => "Refer 10 friends"
    case CommunityBuilder => "Refer 25 friends"
    case ActiveNetwork => "5+ referred friends active this week"
    case Mentor => "3+ referred friends active this week"
    case FirstFocus => "Complete your first focus session"
    case FocusEnthusiast => "Complete 10 focus sessions"
    case FocusMaster => "Complete 50 focus sessions"
    case FocusLegend => "Complete 100 focus sessions"
    case FocusDeity => "Complete 500 focus sessions"
    case GoodStart => "Reach a focus score of 50"
    case HighlyFocused => "Reach a focus score of 70"
    case Excellence => "Reach a focus score of 90"
    case Perfection => "Reach a focus score of 95"
    case ConsistentPerformer => "Maintain average score of 80+"
    case UnderGoal => "Stay under screen time goal today"
    case WeekUnderGoal => "7 consecutive days under goal"
    case MonthUnderGoal => "30 consecutive days under goal"
    case DigitalMinimalist => "Screen time 50% below goal"
  }

  /** The tier of each badge. */
  function TierOf(id: AchievementId): Tier {
    match id
    case FirstWeek => Bronze
    case TwoWeeks => Silver
    case MonthlyMaster => Gold
    case FiftyDays => Platinum
    case CenturyClub => Platinum
    case ComebackKid => Bronze
    case Unstoppable => Gold
    case FirstFriend => Bronze
    case SocialButterfly => Silver
    case Influencer => Gold
    case CommunityBuilder => Platinum
    case ActiveNetwork => Gold
    case Mentor => Silver
    case FirstFocus => Bronze
    case FocusEnthusiast => Bronze
    case FocusMaster => Silver
    case FocusLegend => Gold
    case FocusDeity => Platinum
    case GoodStart => Bronze
    case HighlyFocused => Silver
    case Excellence => Gold
    case Perfection => Platinum
    case ConsistentPerformer => Gold
    case UnderGoal => Bronze
    case WeekUnderGoal => Silver
    case MonthUnderGoal => Gold
    case DigitalMinimalist => Platinum
  }

  /** The badges in table order: 7 streak, 6 referral, 5 focus, 5 score and 4 screen-time ones. */
  const IDS: seq<AchievementId> := [
    FirstWeek, TwoWeeks, MonthlyMaster, FiftyDays, CenturyClub,
    ComebackKid, Unstoppable, FirstFriend, SocialButterfly, Influencer,
    CommunityBuilder, ActiveNetwork, Mentor, FirstFocus, FocusEnthusiast,
    FocusMaster, FocusLegend, FocusDeity, GoodStart, HighlyFocused,
    Excellence, Perfection, ConsistentPerformer, UnderGoal, WeekUnderGoal,
    MonthUnderGoal, DigitalMinimalist]

  function IdAt(i: int): AchievementId {
    if 0 <= i < |IDS| then IDS[i] else FirstWeek
  }

  /** `ACHIEVEMENTS`: the table, in its declared order. */
  function AllAchievements(): seq<Achievement> {
    seq(27, i => Entry(IdAt(i)))
  }

  /** The position of each badge in `ACHIEVEMENTS`. */
  function Index(id: AchievementId): nat {
    match id
    case FirstWeek => 0
    case TwoWeeks => 1
    case MonthlyMaster => 2
    case FiftyDays => 3
    case CenturyClub => 4
    case ComebackKid => 5
    case Unstoppable => 6
    case FirstFriend => 7
    case SocialButterfly => 8
    case Influencer => 9
    case CommunityBuilder => 10
    case ActiveNetwork => 11
    case Mentor => 12
    case FirstFocus => 13
    case FocusEnthusiast => 14
    case FocusMaster => 15
    case FocusLegend => 16
    case FocusDeity => 17
    case GoodStart => 18
    case HighlyFocused => 19
    case Excellence => 20
    case Perfection => 21
    case ConsistentPerformer => 22
    case UnderGoal => 23
    case WeekUnderGoal => 24
    case MonthUnderGoal => 25
    case DigitalMinimalist => 26
  }

  /** The category blocks of the table: positions [Start(c), End(c)) hold the badges of `c`. */
  function Start(c: Category): nat {
    match c
    case StreakCategory => 0
    case Referrals => 7
    case Focus => 13
    case Score => 18
    case ScreenTime => 23
  }

  function End(c: Category): nat {
    match c
    case StreakCategory => 7
    case Referrals => 13
    case Focus => 18
    case Score => 23
    case ScreenTime => 27
  }

  /** Position `i` of the id list holds the id whose index is `i`, inside its category's block. */
  lemma IdsAreIndexed()
    ensures |IDS| == 27
    ensures forall i | 0 <= i < |IDS| :: Index(IDS[i]) == i
    ensures forall i | 0 <= i < |IDS| :: Start(CategoryOf(IDS[i])) <= i < End(CategoryOf(IDS[i]))
  {
    forall i | 0 <= i < |IDS|
      ensures Index(IDS[i]) == i
      ensures Start(CategoryOf(IDS[i])) <= i < End(CategoryOf(IDS[i]))
    {
      IdIsIndexed(i);
    }
  }

  lemma IdIsIndexed(i: nat)
    requires i < |IDS|
    ensures Index(IDS[i]) == i
    ensures Start(CategoryOf(IDS[i])) <= i < End(CategoryOf(IDS[i]))
  {
    if i < 7 {
      IdIsIndexedStreak(i);
    } else if i < 13 {
      IdIsIndexedReferrals(i);
    } else if i < 18 {
      IdIsIndexedFocus(i);
    } else {
      IdIsIndexedRest(i);
    }
  }

  lemma IdIsIndexedStreak(i: nat)
    requires 0 <= i < 7 <= |IDS|
    ensures Index(IDS[i]) == i
    ensures Start(CategoryOf(IDS[i])) <= i < End(CategoryOf(IDS[i]))
  {
    if i == 0 {
    } else if i == 1 {
    } else if i == 2 {
    } else if i == 3 {
    } else if i == 4 {
    } else if i == 5 {
    }
  }

  lemma IdIsIndexedReferrals(i: nat)
    requires 7 <= i < 13 <= |IDS|
    ensures Index(IDS[i]) == i
    ensures Start(CategoryOf(IDS[i])) <= i < End(CategoryOf(IDS[i]))
  {
    if i == 7 {
    } else if i == 8 {
    } else if i == 9 {
    } else if i == 10 {
    } else if i == 11 {
    }
  }

  lemma IdIsIndexedFocus(i: nat)
    requires 13 <= i < 18 <= |IDS|
    ensures Index(IDS[i]) == i
    ensures Start(CategoryOf(IDS[i])) <= i < End(CategoryOf(IDS[i]))
  {
    if i == 13 {
    } else if i == 14 {
    } else if i == 15 {
    } else if i == 16 {
    }
  }

  lemma IdIsIndexedRest(i: nat)
    requires 18 <= i < 27 <= |IDS|
    ensures Index(IDS[i]) == i
    ensures Start(CategoryOf(IDS[i])) <= i < End(CategoryOf(IDS[i]))
  {
    if i == 18 {
    } else if i == 19 {
    } else if i == 20 {
    } else if i == 21 {
    } else if i == 22 {
    } else if i == 23 {
    } else if i == 24 {
    } else if i == 25 {
    }
  }

  /** Every id sits at its index in the id list. */
  lemma IdsCoverAll()
    ensures forall id: AchievementId :: Index(id) < |IDS| && IDS[Index(id)] == id
  {
    forall id: AchievementId ensures Index(id) < |IDS| && IDS[Index(id)] == id {
      IdIsCovered(id);
    }
  }

  lemma IdIsCovered(id: AchievementId)
    ensures Index(id) < |IDS| && IDS[Index(id)] == id
  {
    match id {
      case FirstWeek =>
      case TwoWeeks =>
      case MonthlyMaster =>
      case FiftyDays =>
      case CenturyClub =>
      case ComebackKid =>
      case Unstoppable =>
      case FirstFriend =>
      case SocialButterfly =>
      case Influencer =>
      case CommunityBuilder =>
      case ActiveNetwork =>
      case Mentor =>
      case FirstFocus =>
      case FocusEnthusiast =>
      case FocusMaster =>
      case FocusLegend =>
      case FocusDeity =>
      case GoodStart =>
      case HighlyFocused =>
      case Excellence =>
      case Perfection =>
      case ConsistentPerformer =>
      case UnderGoal =>
      case WeekUnderGoal =>
      case MonthUnderGoal =>
      case DigitalMinimalist =>
    }
  }

  /** The table has one entry per id, at the id's index, so no entry is repeated. */
  lemma TableIsIndexed()
    ensures |AllAchievements()| == 27
    ensures forall i | 0 <= i < |AllAchievements()| :: AllAchievements()[i] == Entry(IDS[i]) && Index(AllAchievements()[i].id) == i
    ensures forall id: AchievementId :: Index(id) < |AllAchievements()| && AllAchievements()[Index(id)] == Entry(id)
    ensures Distinct(AllAchievements())
  {
    IdsAreIndexed();
    IdsCoverAll();
    forall i, j | 0 <= i < j < |AllAchievements()| ensures AllAchievements()[i] != AllAchievements()[j] {
      assert Index(AllAchievements()[i].id) != Index(AllAchievements()[j].id);
    }
  }

  /** Entry `i` of the table belongs to category `c` exactly when `i` lies in the block of `c`. */
  lemma CategoriesAreBlocks()
    ensures forall i, c | 0 <= i < |AllAchievements()| :: AllAchievements()[i].category == c <==> Start(c) <= i < End(c)
  {
    forall i, c | 0 <= i < |AllAchievements()|
      ensures AllAchievements()[i].category == c <==> Start(c) <= i < End(c)
    {
      assert AllAchievements()[i] == Entry(IdAt(i));
      IdIsIndexed(i);
      var own := CategoryOf(IDS[i]);
      assert AllAchievements()[i].category == own;
      if Start(c) <= i < End(c) {
        BlocksAreDisjoint(own, c, i);
      }
    }
  }

  lemma BlocksAreDisjoint(c: Category, d: Category, i: int)
    requires Start(c) <= i < End(c) && Start(d) <= i < End(d)
    ensures c == d
  {
  }

  /** `calculateUnlockedAchievements`: the table filtered by each badge's rule. */
  function CalculateUnlocked(stats: UserStats): (r: seq<Achievement>)
    ensures forall a | a in r :: a in AllAchievements() && Holds(a, stats)
    ensures forall a | a in AllAchievements() && Holds(a, stats) :: a in r
    ensures SubseqOf(r, AllAchievements())
    ensures Distinct(r)
  {
    FilterIsSubseq(AllAchievements(), (a: Achievement) => Holds(a, stats));
    TableIsIndexed();
    FilterDistinct(AllAchievements(), (a: Achievement) => Holds(a, stats));
    Filter(AllAchievements(), (a: Achievement) => Holds(a, stats))
  }

  /** `getAchievementsByCategory`: the badges of one category, in table order. */
  function GetAchievementsByCategory(c: Category): (r: seq<Achievement>)
    ensures forall a | a in r :: a in AllAchievements() && a.category == c
    ensures forall a | a in AllAchievements() && a.category == c :: a in r
    ensures SubseqOf(r, AllAchievements())
    ensures Distinct(r)
  {
    FilterIsSubseq(AllAchievements(), (a: Achievement) => a.category == c);
    TableIsIndexed();
    FilterDistinct(AllAchievements(), (a: Achievement) => a.category == c);
    Filter(AllAchievements(), (a: Achievement) => a.category == c)
  }

  datatype Progress = Progress(total: nat, unlocked: nat, percentage: int)

  /** `getAchievementProgress`: table size, unlocked count and the rounded percentage. */
  function GetAchievementProgress(stats: UserStats): (p: Progress)
    ensures p.total == |AllAchievements()| == 27
    ensures p.unlocked == |CalculateUnlocked(stats)| <= p.total
    ensures 2 * p.total * p.percentage - p.total <= 2 * 100 * p.unlocked < 2 * p.total * p.percentage + p.total
    ensures 0 <= p.percentage <= 100
    ensures p.percentage == 100 <==> forall a | a in AllAchievements() :: Holds(a, stats)
    ensures p.percentage == 0 <==> forall a | a in AllAchievements() :: !Holds(a, stats)
  {
    var unlocked := CalculateUnlocked(stats);
    var percentage := Numeric.RoundDiv(100 * |unlocked|, 27);
    FilterKeepsAll(AllAchievements(), (a: Achievement) => Holds(a, stats));
    FilterKeepsNone(AllAchievements(), (a: Achievement) => Holds(a, stats));
    PercentageExtremes(|unlocked|, percentage);
    Progress(|AllAchievements()|, |unlocked|, percentage)
  }

  /** Out of 27, the rounded percentage is 100 only for 27 and 0 only for 0. */
  lemma PercentageExtremes(unlocked: int, percentage: int)
    requires 0 <= unlocked <= 27
    requires 54 * percentage - 27 <= 200 * unlocked < 54 * percentage + 27
    ensures 0 <= percentage <= 100
    ensures percentage == 100 <==> unlocked == 27
    ensures percentage == 0 <==> unlocked == 0
  {
  }

  /**
   * The unlocked list is the only order-preserving selection of the table
   * holding exactly the badges whose rule is met.
   */
  lemma UnlockedIsUnique(stats: UserStats, r: seq<Achievement>)
    requires SubseqOf(r, AllAchievements())
    requires forall a | a in r :: Holds(a, stats)
    requires forall a | a in AllAchievements() && Holds(a, stats) :: a in r
    ensures r == CalculateUnlocked(stats)
  {
    TableIsIndexed();
    var u := CalculateUnlocked(stats);
    SubseqMembers(r, AllAchievements());
    SubseqUnique(r, u, AllAchievements());
  }

  /** Whether badge `id` is in the unlocked list. */
  predicate IsUnlocked(id: AchievementId, stats: UserStats) {
    exists a | a in CalculateUnlocked(stats) :: a.id == id
  }

  lemma UnlockedIff(id: AchievementId, stats: UserStats)
    ensures IsUnlocked(id, stats) <==> Requirement(id, stats)
  {
    if Requirement(id, stats) {
      TableIsIndexed();
      var a := AllAchievements()[Index(id)];
      assert a in AllAchievements() && a.id == id;
      assert a in CalculateUnlocked(stats);
    }
  }

  /** The badges of category `c` are exactly the table's block for `c`. */
  lemma CategoryIsBlock(c: Category)
    ensures GetAchievementsByCategory(c) == AllAchievements()[Start(c)..End(c)]
  {
    CategoriesAreBlocks();
    FilterBlock(AllAchievements(), (a: Achievement) => a.category == c, Start(c), End(c));
  }

  /**
   * The five category filters partition the table, in table order, into
   * 7 streak, 6 referral, 5 focus, 5 score and 4 screen-time badges.
   */
  lemma CategoriesPartitionTable()
    ensures |GetAchievementsByCategory(StreakCategory)| == 7
    ensures |GetAchievementsByCategory(Referrals)| == 6
    ensures |GetAchievementsByCategory(Focus)| == 5
    ensures |GetAchievementsByCategory(Score)| == 5
    ensures |GetAchievementsByCategory(ScreenTime)| == 4
    ensures GetAchievementsByCategory(StreakCategory) + GetAchievementsByCategory(Referrals)
      + GetAchievementsByCategory(Focus) + GetAchievementsByCategory(Score)
      + GetAchievementsByCategory(ScreenTime) == AllAchievements()
  {
    CategoryIsBlock(StreakCategory);
    CategoryIsBlock(Referrals);
    CategoryIsBlock(Focus);
    CategoryIsBlock(Score);
    CategoryIsBlock(ScreenTime);
    SlicesJoin(AllAchievements(), GetAchievementsByCategory(StreakCategory), GetAchievementsByCategory(Referrals),
      GetAchievementsByCategory(Focus), GetAchievementsByCategory(Score), GetAchievementsByCategory(ScreenTime));
  }

  lemma SlicesJoin(t: seq<Achievement>, s0: seq<Achievement>, s1: seq<Achievement>, s2: seq<Achievement>,
                   s3: seq<Achievement>, s4: seq<Achievement>)
    requires |t| == 27
    requires s0 == t[0..7] && s1 == t[7..13] && s2 == t[13..18] && s3 == t[18..23] && s4 == t[23..27]
    ensures |s0| == 7 && |s1| == 6 && |s2| == 5 && |s3| == 5 && |s4| == 4
    ensures s0 + s1 + s2 + s3 + s4 == t
  {
    assert t == t[0..7] + t[7..13] + t[13..18] + t[18..23] + t[23..27];
  }

  /** Tier ladders: in each, a later badge's rule implies every earlier one's. */
  const STREAK_LADDER: seq<AchievementId> := [FirstWeek, TwoWeeks, MonthlyMaster, FiftyDays, CenturyClub]
  const REFERRAL_LADDER: seq<AchievementId> := [FirstFriend, SocialButterfly, Influencer, CommunityBuilder]
  const ACTIVE_LADDER: seq<AchievementId> := [Mentor, ActiveNetwork]
  const SESSION_LADDER: seq<AchievementId> := [FirstFocus, FocusEnthusiast, FocusMaster, FocusLegend, FocusDeity]
  const SCORE_LADDER: seq<AchievementId> := [GoodStart, HighlyFocused, Excellence, Perfection]
  const UNDER_GOAL_LADDER: seq<AchievementId> := [UnderGoal, DigitalMinimalist]
  const DAYS_LADDER: seq<AchievementId> := [WeekUnderGoal, MonthUnderGoal]

  predicate Stacks(ladder: seq<AchievementId>, stats: UserStats) {
    forall i, j | 0 <= i <= j < |ladder| :: IsUnlocked(ladder[j], stats) ==> IsUnlocked(ladder[i], stats)
  }

  lemma TiersStack(stats: UserStats)
    ensures Stacks(STREAK_LADDER, stats)
    ensures Stacks(REFERRAL_LADDER, stats)
    ensures Stacks(ACTIVE_LADDER, stats)
    ensures Stacks(SESSION_LADDER, stats)
    ensures Stacks(SCORE_LADDER, stats)
    ensures Stacks(UNDER_GOAL_LADDER, stats)
    ensures Stacks(DAYS_LADDER, stats)
  {
    StreakLadderStacks(stats);
    ReferralLadderStacks(stats);
    ActiveLadderStacks(stats);
    SessionLadderStacks(stats);
    ScoreLadderStacks(stats);
    UnderGoalLadderStacks(stats);
    DaysLadderStacks(stats);
  }

  lemma StreakLadderStacks(stats: UserStats)
    ensures Stacks(STREAK_LADDER, stats)
  {
    StacksByRule(STREAK_LADDER, stats);
  }

  lemma ReferralLadderStacks(stats: UserStats)
    ensures Stacks(REFERRAL_LADDER, stats)
  {
    StacksByRule(REFERRAL_LADDER, stats);
  }

  lemma ActiveLadderStacks(stats: UserStats)
    ensures Stacks(ACTIVE_LADDER, stats)
  {
    StacksByRule(ACTIVE_LADDER, stats);
  }

  lemma SessionLadderStacks(stats: UserStats)
    ensures Stacks(SESSION_LADDER, stats)
  {
    StacksByRule(SESSION_LADDER, stats);
  }

  lemma ScoreLadderStacks(stats: UserStats)
    ensures Stacks(SCORE_LADDER, stats)
  {
    StacksByRule(SCORE_LADDER, stats);
  }

  lemma UnderGoalLadderStacks(stats: UserStats)
    ensures Stacks(UNDER_GOAL_LADDER, stats)
  {
    StacksByRule(UNDER_GOAL_LADDER, stats);
  }

  lemma DaysLadderStacks(stats: UserStats)
    ensures Stacks(DAYS_LADDER, stats)
  {
    StacksByRule(DAYS_LADDER, stats);
  }

  /** A ladder stacks as soon as each rung's rule implies the rule of the rung below it. */
  lemma StacksByRule(ladder: seq<AchievementId>, stats: UserStats)
    requires forall i | 1 <= i < |ladder| :: Requirement(ladder[i], stats) ==> Requirement(ladder[i - 1], stats)
    ensures Stacks(ladder, stats)
  {
    forall i, j | 0 <= i <= j < |ladder| && IsUnlocked(ladder[j], stats) ensures IsUnlocked(ladder[i], stats) {
      UnlockedIff(ladder[i], stats);
      UnlockedIff(ladder[j], stats);
      RuleChain(ladder, stats, i, j);
    }
  }

  lemma {:induction false} RuleChain(ladder: seq<AchievementId>, stats: UserStats, i: nat, j: nat)
    requires forall k | 1 <= k < |ladder| :: Requirement(ladder[k], stats) ==> Requirement(ladder[k - 1], stats)
    requires i <= j < |ladder|
    ensures Requirement(ladder[j], stats) ==> Requirement(ladder[i], stats)
    decreases j - i
  {
    if i < j {
      RuleChain(ladder, stats, i + 1, j);
    }
  }

  /** A streak of 100 or more unlocks all five streak-count badges. */
  lemma CenturyUnlocksStreakLadder(stats: UserStats)
    requires stats.streak >= 100
    ensures forall i | 0 <= i < |STREAK_LADDER| :: IsUnlocked(STREAK_LADDER[i], stats)
  {
    forall i | 0 <= i < |STREAK_LADDER| ensures IsUnlocked(STREAK_LADDER[i], stats) {
      UnlockedIff(STREAK_LADDER[i], stats);
    }
  }

  /** "Comeback Kid" and "Unstoppable" are never unlocked together. */
  lemma ComebackExcludesUnstoppable(stats: UserStats)
    ensures !(IsUnlocked(ComebackKid, stats) && IsUnlocked(Unstoppable, stats))
  {
    ComebackKidIff(stats);
    UnstoppableIff(stats);
  }

  /** "Comeback Kid": a streak of 7 or more that is below the longest streak. */
  lemma ComebackKidIff(stats: UserStats)
    ensures IsUnlocked(ComebackKid, stats) <==> stats.streak >= 7 && stats.longestStreak > stats.streak
  {
    UnlockedIff(ComebackKid, stats);
  }

  /** "Unstoppable": a streak of 14 or more that equals the longest streak. */
  lemma UnstoppableIff(stats: UserStats)
    ensures IsUnlocked(Unstoppable, stats) <==> stats.streak >= 14 && stats.streak == stats.longestStreak
  {
    UnlockedIff(Unstoppable, stats);
  }

  /** "Digital Minimalist" means a positive goal at least twice today's minutes, and implies "Under Goal". */
  lemma DigitalMinimalistIff(stats: UserStats)
    ensures IsUnlocked(DigitalMinimalist, stats) <==>
      stats.screenTimeGoal > 0 && 2 * stats.screenTimeMinutes <= stats.screenTimeGoal
    ensures IsUnlocked(DigitalMinimalist, stats) ==> IsUnlocked(UnderGoal, stats)
    ensures IsUnlocked(UnderGoal, stats) ==> stats.screenTimeGoal > 0
  {
    UnlockedIff(DigitalMinimalist, stats);
    UnlockedIff(UnderGoal, stats);
    HalfOfGoal(stats.screenTimeMinutes, stats.screenTimeGoal);
    assert Requirement(DigitalMinimalist, stats) <==>
      stats.screenTimeGoal > 0 && 2 * stats.screenTimeMinutes <= stats.screenTimeGoal;
    assert Requirement(UnderGoal, stats) <==>
      stats.screenTimeGoal > 0 && stats.screenTimeMinutes < stats.screenTimeGoal;
  }

  /** The rule's comparison in reals is the integer comparison `2m <= g`. */
  lemma HalfOfGoal(m: int, g: int)
    ensures (m as real) <= (g as real) * 0.5 <==> 2 * m <= g
  {
  }

  const ZERO_STATS := UserStats(0, 0, 0, 0, 0, 0, 0, 0, 0, 0)

  /** A user with all-zero statistics unlocks nothing and has 0% progress. */
  lemma ZeroStatsUnlockNothing(stats: UserStats)
    requires stats == ZERO_STATS
    ensures CalculateUnlocked(stats) == []
    ensures GetAchievementProgress(stats).percentage == 0
  {
    forall a | a in AllAchievements() ensures !Holds(a, stats) {
      ZeroMeetsNoRule(a.id, stats);
    }
    FilterKeepsNone(AllAchievements(), (a: Achievement) => Holds(a, stats));
  }

  lemma ZeroMeetsNoRule(id: AchievementId, stats: UserStats)
    requires stats == ZERO_STATS
    ensures !Requirement(id, stats)
  {
  }

  /** Componentwise "at least as far along" on every field a badge counts upwards. */
  predicate Dominates(a: UserStats, b: UserStats) {
    && a.streak >= b.streak
    && a.totalReferrals >= b.totalReferrals
    && a.activeReferrals >= b.activeReferrals
    && a.totalFocusSessions >= b.totalFocusSessions
    && a.currentFocusScore >= b.currentFocusScore
    && a.avgFocusScore >= b.avgFocusScore
    && a.daysUnderGoal >= b.daysUnderGoal
    && a.longestStreak >= b.longestStreak
    && a.screenTimeGoal == b.screenTimeGoal
    && a.screenTimeMinutes <= b.screenTimeMinutes
  }

  /** Every badge except the two streak-comparison ones is monotonic in the statistics. */
  lemma UnlockIsMonotonic(a: UserStats, b: UserStats, id: AchievementId)
    requires Dominates(a, b)
    requires id != ComebackKid && id != Unstoppable
    ensures IsUnlocked(id, b) ==> IsUnlocked(id, a)
  {
    UnlockedIff(id, a);
    UnlockedIff(id, b);
  }

  /** The two streak-comparison badges are not monotonic, and they split the two sample users. */
  lemma StreakComparisonExamples()
    ensures var rebuilding := ZERO_STATS.(streak := 7, longestStreak := 10);
      IsUnlocked(ComebackKid, rebuilding) && !IsUnlocked(Unstoppable, rebuilding)
    ensures var atBest := ZERO_STATS.(streak := 14, longestStreak := 14);
      IsUnlocked(Unstoppable, atBest) && !IsUnlocked(ComebackKid, atBest)
    ensures var further := ZERO_STATS.(streak := 15, longestStreak := 20);
      Dominates(further, ZERO_STATS.(streak := 14, longestStreak := 14)) && !IsUnlocked(Unstoppable, further)
  {
    UnlockedIff(ComebackKid, ZERO_STATS.(streak := 7, longestStreak := 10));
    UnlockedIff(Unstoppable, ZERO_STATS.(streak := 7, longestStreak := 10));
    UnlockedIff(ComebackKid, ZERO_STATS.(streak := 14, longestStreak := 14));
    UnlockedIff(Unstoppable, ZERO_STATS.(streak := 14, longestStreak := 14));
    UnlockedIff(Unstoppable, ZERO_STATS.(streak := 15, longestStreak := 20));
  }
}

=== FILE: focus_timer.dfy ===
/**
 * The focus timer: a countdown of whole seconds that a one-second interval
 * decrements while it runs, a start/pause toggle, a reset, and the
 * `mm:ss` rendering of the remaining time.
 */
module FocusTimer {
  import opened Wrappers
  import opened Numeric

  const DEFAULT_MINUTES: nat := 25

  /** The component's state; `initialMinutes` is its (fixed) property. */
  datatype Timer = Timer(initialMinutes: nat, seconds: int, isRunning: bool)

  /** What every reachable state satisfies: the countdown never goes negative. */
  predicate Valid(t: Timer) {
    t.seconds >= 0
  }

  /** The first render: the full duration, paused. */
  function Init(initialMinutes: nat): (t: Timer)
    ensures Valid(t)
    ensures t.seconds == initialMinutes * 60 && !t.isRunning
    ensures t.initialMinutes == initialMinutes
  {
    Timer(initialMinutes, initialMinutes * 60, false)
  }

  /**
   * One firing of the interval. The interval is only armed while running
   * with time left, so a paused or finished timer is left as it is; in
   * particular a timer that reaches zero stays "running" at zero.
   */
  function Tick(t: Timer): (r: Timer)
    ensures Valid(t) ==> Valid(r)
    ensures r.isRunning == t.isRunning && r.initialMinutes == t.initialMinutes
    ensures t.isRunning && t.seconds > 0 ==> r.seconds == t.seconds - 1
    ensures !(t.isRunning && t.seconds > 0) ==> r == t
  {
    if t.isRunning && t.seconds > 0 then t.(seconds := t.seconds - 1) else t
  }

  /** `n` successive interval firings. */
  function Ticks(t: Timer, n: nat): Timer {
    if n == 0 then t else Tick(Ticks(t, n - 1))
  }

  /** The start/pause button. */
  function Toggle(t: Timer): (r: Timer)
    ensures r.isRunning == !t.isRunning
    ensures r.seconds == t.seconds && r.initialMinutes == t.initialMinutes
  {
    t.(isRunning := !t.isRunning)
  }

  /** The reset button: back to the initial state, whatever the timer was doing. */
  function Reset(t: Timer): (r: Timer)
    ensures r == Init(t.initialMinutes)
    ensures Valid(r)
  {
    t.(seconds := t.initialMinutes * 60, isRunning := false)
  }

  /** A running timer counts down one second per firing and stops at zero. */
  lemma {:induction false} TicksCountDown(t: Timer, n: nat)
    requires Valid(t) && t.isRunning
    ensures Ticks(t, n).seconds == Max(0, t.seconds - n)
    ensures Ticks(t, n).isRunning && Ticks(t, n).initialMinutes == t.initialMinutes
  {
    if n > 0 {
      TicksCountDown(t, n - 1);
    }
  }

  /** A paused timer does not move, however often the interval would fire. */
  lemma {:induction false} PausedTimerHolds(t: Timer, n: nat)
    requires !t.isRunning
    ensures Ticks(t, n) == t
  {
    if n > 0 {
      PausedTimerHolds(t, n - 1);
    }
  }

  /** Pressing start/pause twice is no change at all. */
  lemma ToggleTwiceRestores(t: Timer)
    ensures Toggle(Toggle(t)) == t
  {
  }

  /** The user's and the interval's actions on the timer. */
  datatype Action = Fire | PressToggle | PressReset

  function Step(t: Timer, a: Action): Timer {
    match a
    case Fire => Tick(t)
    case PressToggle => Toggle(t)
    case PressReset => Reset(t)
  }

  /** The state after a run of actions, applied left to right. */
  function Run(t: Timer, actions: seq<Action>): Timer
    decreases |actions|
  {
    if actions == [] then t else Run(Step(t, actions[0]), actions[1..])
  }

  /** Whatever happens after mounting, the countdown never goes negative. */
  lemma {:induction false} RunKeepsValid(t: Timer, actions: seq<Action>)
    requires Valid(t)
    ensures Valid(Run(t, actions))
    ensures Run(t, actions).initialMinutes == t.initialMinutes
    decreases |actions|
  {
    if actions != [] {
      RunKeepsValid(Step(t, actions[0]), actions[1..]);
    }
  }

  lemma ReachableIsValid(initialMinutes: nat, actions: seq<Action>)
    ensures Valid(Run(Init(initialMinutes), actions))
  {
    RunKeepsValid(Init(initialMinutes), actions);
  }

  lemma ResetIsIdempotent(t: Timer)
    ensures Reset(Reset(t)) == Reset(t)
  {
  }

  // ----- rendering -----

  /**
   * `formatTime`: minutes and seconds, each zero-padded to two digits and
   * joined by a colon. Minutes are not capped, so 100 minutes or more make
   * a longer minutes field.
   */
  function FormatTime(totalSeconds: nat): (r: string)
    ensures ParseClock(r) == Some(totalSeconds)
    ensures totalSeconds < 6000 ==> |r| == 5
    ensures totalSeconds >= 6000 ==> r[0] != '0'
  {
    var mins := TwoDigits(totalSeconds / 60);
    var secs := TwoDigits(totalSeconds % 60);
    ClockFields(mins, secs, mins + ":" + secs, totalSeconds);
    mins + ":" + secs
  }

  /** `padStart(2, '0')` of a number: at least two digits, reading back as the number. */
  function TwoDigits(n: nat): (r: string)
    ensures |r| >= 2 && AllDigits(r) && ParseDecimal(r) == n
    ensures n < 100 ==> |r| == 2
    ensures n >= 10 ==> r[0] != '0'
  {
    PaddedRoundTrip(n, 2);
    PadStart(NatToString(n), 2, '0')
  }

  /** Two zero-padded fields joined by a colon read back as minutes * 60 + seconds. */
  lemma ClockFields(mins: string, secs: string, r: string, t: nat)
    requires |mins| >= 2 && |secs| == 2 && AllDigits(mins) && AllDigits(secs)
    requires ParseDecimal(mins) == t / 60 && ParseDecimal(secs) == t % 60
    requires t < 6000 ==> |mins| == 2
    requires t >= 6000 ==> mins[0] != '0'
    requires r == mins + ":" + secs
    ensures ParseClock(r) == Some(t)
    ensures t < 6000 ==> |r| == 5
    ensures t >= 6000 ==> r[0] != '0'
  {
    assert r[..|r| - 3] == mins && r[|r| - 2..] == secs;
  }

  /** Reads a `mm:ss` display back into seconds; `None` when it is not one. */
  function ParseClock(s: string): (r: Option<nat>)
    ensures r.Some? ==> |s| >= 5 && s[|s| - 3] == ':'
  {
    if |s| >= 5 && s[|s| - 3] == ':' && AllDigits(s[..|s| - 3]) && AllDigits(s[|s| - 2..])
       && ParseDecimal(s[|s| - 2..]) < 60
    then Some(ParseDecimal(s[..|s| - 3]) * 60 + ParseDecimal(s[|s| - 2..]))
    else None
  }

  /** Different remaining times never render alike. */
  lemma FormatIsInjective(a: nat, b: nat)
    requires FormatTime(a) == FormatTime(b)
    ensures a == b
  {
  }

  /** The default 25 minutes renders as "25:00". */
  lemma DefaultDisplay()
    ensures FormatTime(Init(DEFAULT_MINUTES).seconds) == "25:00"
  {
    var t := Init(DEFAULT_MINUTES).seconds;
    assert t / 60 == 25 && t % 60 == 0;
    TwoDigitsOf(25, "25");
    TwoDigitsOf(0, "00");
  }

  /** A two-digit numeral is what `TwoDigits` gives for its value. */
  lemma TwoDigitsOf(n: nat, s: string)
    requires |s| == 2 && AllDigits(s) && ParseDecimal(s) == n
    ensures TwoDigits(n) == s
  {
    TwoDigitValue(s);
    TwoDigitNumeralsDiffer(TwoDigits(n), s);
  }

  /** Two-digit numerals with the same value are the same numeral. */
  lemma TwoDigitNumeralsDiffer(a: string, b: string)
    requires |a| == 2 && |b| == 2 && AllDigits(a) && AllDigits(b)
    requires ParseDecimal(a) == ParseDecimal(b)
    ensures a == b
  {
    TwoDigitValue(a);
    TwoDigitValue(b);
    assert a[0] == b[0] && a[1] == b[1];
  }

  lemma TwoDigitValue(s: string)
    requires |s| == 2 && AllDigits(s)
    ensures ParseDecimal(s) == DigitValue(s[0]) * 10 + DigitValue(s[1])
  {
    var head := s[..1];
    assert s[..|s| - 1] == head && head[..|head| - 1] == [];
    assert ParseDecimal(head) == DigitValue(s[0]);
  }
}

=== FILE: leaderboard.dfy ===
/**
 * `getUserFriends` and `getLeaderboard`: the accepted-friendship edge
 * filter, the left join of candidate users with today's daily stats, and
 * the ranking that sorts by score, truncates and numbers the standings.
 */
module Leaderboard {
  import opened Seqs
  import opened Schema

  const DEFAULT_LIMIT: nat := 10

  /** There is an accepted edge `userId -> friendId`. */
  ghost predicate IsFriend(edges: seq<Friendship>, userId: nat, friendId: nat) {
    exists e | e in edges :: e.userId == userId && e.status == Accepted && e.friendId == friendId
  }

  predicate AcceptedFrom(e: Friendship, userId: nat) {
    e.userId == userId && e.status == Accepted
  }

  /** The `friendId` of every accepted edge leaving `userId`, in table order. */
  function FriendIds(edges: seq<Friendship>, userId: nat): (r: seq<nat>)
    ensures forall f | f in r :: IsFriend(edges, userId, f)
    ensures forall e | e in edges && AcceptedFrom(e, userId) :: e.friendId in r
  {
    if edges == [] then []
    else
      var init := edges[..|edges| - 1];
      var e := edges[|edges| - 1];
      assert forall x | x in init :: x in edges;
      FriendIds(init, userId) + (if AcceptedFrom(e, userId) then [e.friendId] else [])
  }

  /** The inner-join condition `friendId = users.id` as a filter over the users table. */
  function HasId(fid: nat): User -> bool {
    (u: User) => u.id == fid
  }

  /** The `WHERE` of the friends query, for the edges that reach `fid`. */
  function AcceptedTo(userId: nat, fid: nat): Friendship -> bool {
    (e: Friendship) => AcceptedFrom(e, userId) && e.friendId == fid
  }

  /** How many accepted edges lead from `userId` to `fid`. */
  function EdgeCount(edges: seq<Friendship>, userId: nat, fid: nat): nat {
    |Filter(edges, AcceptedTo(userId, fid))|
  }

  /**
   * `getUserFriends`: the inner join of the accepted edges leaving `userId`
   * with the users table on `friendId = users.id`, one row per pair of an
   * edge and a user it reaches.
   */
  function GetUserFriends(edges: seq<Friendship>, users: seq<User>, userId: nat): (r: seq<User>)
    ensures forall u | u in r :: u in users && IsFriend(edges, userId, u.id)
    ensures forall u | u in users && IsFriend(edges, userId, u.id) :: u in r
    ensures forall u :: multiset(r)[u] == multiset(users)[u] * EdgeCount(edges, userId, u.id)
  {
    if edges == [] then []
    else
      var init := edges[..|edges| - 1];
      var e := edges[|edges| - 1];
      var prev := GetUserFriends(init, users, userId);
      var r := prev + (if AcceptedFrom(e, userId) then Filter(users, HasId(e.friendId)) else []);
      FriendsStep(edges, users, userId, prev, r);
      FriendsMembers(edges, users, userId, r);
      r
  }

  /** One more edge adds, for the user it reaches, one more copy of each of that user's rows. */
  lemma FriendsStep(edges: seq<Friendship>, users: seq<User>, userId: nat, prev: seq<User>, r: seq<User>)
    requires edges != []
    requires forall u :: multiset(prev)[u] == multiset(users)[u] * EdgeCount(edges[..|edges| - 1], userId, u.id)
    requires var e := edges[|edges| - 1];
      r == prev + (if AcceptedFrom(e, userId) then Filter(users, HasId(e.friendId)) else [])
    ensures forall u :: multiset(r)[u] == multiset(users)[u] * EdgeCount(edges, userId, u.id)
  {
    var init := edges[..|edges| - 1];
    var e := edges[|edges| - 1];
    assert edges == init + [e];
    forall u
      ensures multiset(r)[u] == multiset(users)[u] * EdgeCount(edges, userId, u.id)
    {
      FriendsStepAt(init, e, users, userId, prev, r, u);
    }
  }

  lemma FriendsStepAt(init: seq<Friendship>, e: Friendship, users: seq<User>, userId: nat,
                      prev: seq<User>, r: seq<User>, u: User)
    requires multiset(prev)[u] == multiset(users)[u] * EdgeCount(init, userId, u.id)
    requires r == prev + (if AcceptedFrom(e, userId) then Filter(users, HasId(e.friendId)) else [])
    ensures multiset(r)[u] == multiset(users)[u] * EdgeCount(init + [e], userId, u.id)
  {
    var m := multiset(users)[u];
    var c := EdgeCount(init, userId, u.id);
    var hit := AcceptedFrom(e, userId) && e.friendId == u.id;
    EdgeCountAppend(init, e, userId, u.id);
    if AcceptedFrom(e, userId) {
      FilterCount(users, HasId(e.friendId), u);
      assert HasId(e.friendId)(u) == hit;
    }
    assert multiset(r)[u] == multiset(prev)[u] + (if hit then m else 0);
    if hit {
      MulSucc(m, c);
    }
  }

  lemma MulSucc(m: nat, c: nat)
    ensures m * (c + 1) == m * c + m
  {
  }

  lemma EdgeCountAppend(init: seq<Friendship>, e: Friendship, userId: nat, fid: nat)
    ensures EdgeCount(init + [e], userId, fid)
         == EdgeCount(init, userId, fid) + (if AcceptedFrom(e, userId) && e.friendId == fid then 1 else 0)
  {
    var q := AcceptedTo(userId, fid);
    FilterAppend(init, [e], q);
    assert q(e) == (AcceptedFrom(e, userId) && e.friendId == fid);
    assert Filter([e], q) == if q(e) then [e] else [];
  }

  /** A user occurs among the friends iff it is in the table and reached by some accepted edge. */
  lemma FriendsMembers(edges: seq<Friendship>, users: seq<User>, userId: nat, r: seq<User>)
    requires forall u :: multiset(r)[u] == multiset(users)[u] * EdgeCount(edges, userId, u.id)
    ensures forall u | u in r :: u in users && IsFriend(edges, userId, u.id)
    ensures forall u | u in users && IsFriend(edges, userId, u.id) :: u in r
  {
    forall u
      ensures u in r <==> u in users && IsFriend(edges, userId, u.id)
    {
      FriendsMemberAt(edges, users, userId, r, u);
    }
  }

  lemma FriendsMemberAt(edges: seq<Friendship>, users: seq<User>, userId: nat, r: seq<User>, u: User)
    requires multiset(r)[u] == multiset(users)[u] * EdgeCount(edges, userId, u.id)
    ensures u in r <==> u in users && IsFriend(edges, userId, u.id)
  {
    var q := AcceptedTo(userId, u.id);
    FilterKeepsNone(edges, q);
    assert forall x | x in edges :: q(x) <==> x.userId == userId && x.status == Accepted && x.friendId == u.id;
    MulPositive(multiset(users)[u], EdgeCount(edges, userId, u.id));
  }

  lemma MulPositive(m: nat, c: nat)
    ensures m * c > 0 <==> m > 0 && c > 0
  {
  }

  /** Self first, then every accepted friend: the ids the leaderboard is drawn from. */
  function CandidateIds(edges: seq<Friendship>, userId: nat): (r: seq<nat>)
    ensures |r| >= 1 && r[0] == userId
    ensures forall id | id in r :: id == userId || IsFriend(edges, userId, id)
    ensures forall e | e in edges && AcceptedFrom(e, userId) :: e.friendId in r
  {
    [userId] + FriendIds(edges, userId)
  }

  /** A joined row: a user with the `COALESCE(focusScore, 0)` of one of their stat rows. */
  datatype Scored = Scored(user: User, score: int)

  /** A leaderboard line: the joined row and its 1-based position. */
  datatype Standing = Standing(user: User, score: int, rank: nat)

  /** The left-join condition: a stat row of that user dated today or later. */
  predicate CountsToday(s: DailyStat, uid: nat, today: int) {
    s.userId == uid && s.day >= today
  }

  /** The left-join condition as a filter over the stat rows. */
  function Matches(uid: nat, today: int): DailyStat -> bool {
    s => CountsToday(s, uid, today)
  }

  ghost predicate NoRowToday(stats: seq<DailyStat>, uid: nat, today: int) {
    forall s | s in stats :: !CountsToday(s, uid, today)
  }

  /** `score` is what the left join can pair user `uid` with. */
  ghost predicate ScoreOption(stats: seq<DailyStat>, uid: nat, today: int, score: int) {
    || (exists s | s in stats :: CountsToday(s, uid, today) && s.data.focusScore == score)
    || (NoRowToday(stats, uid, today) && score == 0)
  }

  /** The focus scores of the rows that join with user `uid`. */
  function TodayScores(stats: seq<DailyStat>, uid: nat, today: int): (r: seq<int>)
    ensures forall x | x in r :: exists s | s in stats :: CountsToday(s, uid, today) && s.data.focusScore == x
    ensures forall s | s in stats && CountsToday(s, uid, today) :: s.data.focusScore in r
    ensures r == [] <==> NoRowToday(stats, uid, today)
    ensures var m := Filter(stats, Matches(uid, today));
      |r| == |m| && forall i | 0 <= i < |r| :: r[i] == m[i].data.focusScore
  {
    if stats == [] then []
    else
      var rest := TodayScores(stats[1..], uid, today);
      var r := if CountsToday(stats[0], uid, today) then [stats[0].data.focusScore] + rest else rest;
      ScoresFollowMatches(stats, uid, today, rest, r);
      ScoresOfMatches(stats, uid, today, r);
      r
  }

  /** One step of `TodayScores`: the scores line up with the filtered rows. */
  lemma ScoresFollowMatches(stats: seq<DailyStat>, uid: nat, today: int, rest: seq<int>, r: seq<int>)
    requires stats != []
    requires var mr := Filter(stats[1..], Matches(uid, today));
      |rest| == |mr| && forall i | 0 <= i < |rest| :: rest[i] == mr[i].data.focusScore
    requires r == if CountsToday(stats[0], uid, today) then [stats[0].data.focusScore] + rest else rest
    ensures var m := Filter(stats, Matches(uid, today));
      |r| == |m| && forall i | 0 <= i < |r| :: r[i] == m[i].data.focusScore
  {
    assert Matches(uid, today)(stats[0]) == CountsToday(stats[0], uid, today);
  }

  /** Scores that line up with the filtered rows are exactly the scores of the matching rows. */
  lemma ScoresOfMatches(stats: seq<DailyStat>, uid: nat, today: int, r: seq<int>)
    requires var m := Filter(stats, Matches(uid, today));
      |r| == |m| && forall i | 0 <= i < |r| :: r[i] == m[i].data.focusScore
    ensures forall x | x in r :: exists s | s in stats :: CountsToday(s, uid, today) && s.data.focusScore == x
    ensures forall s | s in stats && CountsToday(s, uid, today) :: s.data.focusScore in r
    ensures r == [] <==> NoRowToday(stats, uid, today)
  {
    var m := Filter(stats, Matches(uid, today));
    assert forall s | s in stats :: Matches(uid, today)(s) == CountsToday(s, uid, today);
    forall x | x in r
      ensures exists s | s in stats :: CountsToday(s, uid, today) && s.data.focusScore == x
    {
      var i :| 0 <= i < |r| && r[i] == x;
      assert m[i] in m;
    }
    forall s | s in stats && CountsToday(s, uid, today)
      ensures s.data.focusScore in r
    {
      var i :| 0 <= i < |m| && m[i] == s;
      assert r[i] == s.data.focusScore;
    }
    FilterKeepsNone(stats, Matches(uid, today));
  }

  /** The scores of `u`, each made into a joined row of `u`. */
  function Tag(u: User, scores: seq<int>): (r: seq<Scored>)
    ensures |r| == |scores|
    ensures forall i | 0 <= i < |r| :: r[i] == Scored(u, scores[i])
    ensures forall x | x in r :: x.user == u && x.score in scores
    ensures forall sc | sc in scores :: Scored(u, sc) in r
  {
    var r := seq(|scores|, i requires 0 <= i < |scores| => Scored(u, scores[i]));
    assert forall sc | sc in scores :: Scored(u, sc) in r by {
      forall sc | sc in scores ensures Scored(u, sc) in r {
        var i :| 0 <= i < |scores| && scores[i] == sc;
        assert r[i] == Scored(u, sc);
      }
    }
    r
  }

  /** The rows the left join yields for one user: one per matching stat, or a single 0. */
  function RowsFor(u: User, stats: seq<DailyStat>, today: int): (r: seq<Scored>)
    ensures |r| >= 1
    ensures forall x | x in r :: x.user == u && ScoreOption(stats, u.id, today, x.score)
    ensures forall sc | ScoreOption(stats, u.id, today, sc) :: Scored(u, sc) in r
    ensures var m := Filter(stats, Matches(u.id, today));
      && (m == [] ==> r == [Scored(u, 0)])
      && (m != [] ==> |r| == |m| && forall i | 0 <= i < |r| :: r[i] == Scored(u, m[i].data.focusScore))
  {
    var scores := TodayScores(stats, u.id, today);
    if scores == [] then [Scored(u, 0)] else Tag(u, scores)
  }

  /** Selects the joined rows of one user. */
  function OfUser(u: User): Scored -> bool {
    (x: Scored) => x.user == u
  }

  /**
   * What the join yields for `u`: nothing unless `u.id` is a candidate, and
   * otherwise `u`'s rows once for every time `u` occurs in the users table.
   */
  function JoinedRowsOf(users: seq<User>, stats: seq<DailyStat>, candidates: seq<nat>, today: int, u: User): seq<Scored> {
    if u.id in candidates then Repeat(RowsFor(u, stats, today), multiset(users)[u]) else []
  }

  /**
   * `users LEFT JOIN dailyStats ON users.id = dailyStats.userId AND date >= today
   * WHERE users.id IN candidates`, in users-table order.
   */
  function Joined(users: seq<User>, stats: seq<DailyStat>, candidates: seq<nat>, today: int): (r: seq<Scored>)
    ensures forall x | x in r :: x.user in users && x.user.id in candidates && ScoreOption(stats, x.user.id, today, x.score)
    ensures forall u, sc | u in users && u.id in candidates && ScoreOption(stats, u.id, today, sc) :: Scored(u, sc) in r
    ensures forall u :: Filter(r, OfUser(u)) == JoinedRowsOf(users, stats, candidates, today, u)
  {
    if users == [] then []
    else
      var init := users[..|users| - 1];
      var u := users[|users| - 1];
      assert forall x | x in init :: x in users;
      assert forall x | x in users :: x == u || x in init;
      var prev := Joined(init, stats, candidates, today);
      var r := prev + (if u.id in candidates then RowsFor(u, stats, today) else []);
      JoinedStep(users, stats, candidates, today, prev, r);
      r
  }

  /** One more user row adds one more copy of that user's rows, when it is a candidate. */
  lemma JoinedStep(users: seq<User>, stats: seq<DailyStat>, candidates: seq<nat>, today: int,
                   prev: seq<Scored>, r: seq<Scored>)
    requires users != []
    requires forall u :: Filter(prev, OfUser(u)) == JoinedRowsOf(users[..|users| - 1], stats, candidates, today, u)
    requires var v := users[|users| - 1];
      r == prev + (if v.id in candidates then RowsFor(v, stats, today) else [])
    ensures forall u :: Filter(r, OfUser(u)) == JoinedRowsOf(users, stats, candidates, today, u)
  {
    var init := users[..|users| - 1];
    var v := users[|users| - 1];
    assert users == init + [v];
    forall u
      ensures Filter(r, OfUser(u)) == JoinedRowsOf(users, stats, candidates, today, u)
    {
      JoinedStepAt(init, v, stats, candidates, today, prev, r, u);
    }
  }

  lemma JoinedStepAt(init: seq<User>, v: User, stats: seq<DailyStat>, candidates: seq<nat>, today: int,
                     prev: seq<Scored>, r: seq<Scored>, u: User)
    requires Filter(prev, OfUser(u)) == JoinedRowsOf(init, stats, candidates, today, u)
    requires r == prev + (if v.id in candidates then RowsFor(v, stats, today) else [])
    ensures Filter(r, OfUser(u)) == JoinedRowsOf(init + [v], stats, candidates, today, u)
  {
    var tail := if v.id in candidates then RowsFor(v, stats, today) else [];
    FilterAppend(prev, tail, OfUser(u));
    assert multiset(init + [v])[u] == multiset(init)[u] + (if v == u then 1 else 0);
    if v.id in candidates {
      var rows := RowsFor(v, stats, today);
      if v == u {
        assert forall x | x in rows :: OfUser(u)(x);
        FilterAllKept(rows, OfUser(u));
      } else {
        assert forall x | x in rows :: !OfUser(u)(x);
        FilterKeepsNone(rows, OfUser(u));
      }
    } else {
      assert Filter(tail, OfUser(u)) == [];
    }
  }

  // ----- ordering -----

  /** Highest score first; the order among equal scores is left open. */
  predicate ByScoreDesc(s: seq<Scored>) {
    forall i, j | 0 <= i < j < |s| :: s[i].score >= s[j].score
  }

  function Insert(x: Scored, s: seq<Scored>): (r: seq<Scored>)
    requires ByScoreDesc(s)
    ensures ByScoreDesc(r)
    ensures multiset(r) == multiset(s) + multiset{x}
    ensures |r| == |s| + 1
    ensures r[0] == x || (s != [] && r[0] == s[0])
  {
    if s == [] || x.score >= s[0].score then [x] + s
    else
      var tail := Insert(x, s[1..]);
      assert s == [s[0]] + s[1..];
      [s[0]] + tail
  }

  /** The `ORDER BY score DESC`: a sorted permutation of the joined rows. */
  function SortByScore(s: seq<Scored>): (r: seq<Scored>)
    ensures ByScoreDesc(r)
    ensures multiset(r) == multiset(s)
    ensures |r| == |s|
  {
    if s == [] then []
    else
      assert s == [s[0]] + s[1..];
      Insert(s[0], SortByScore(s[1..]))
  }

  function Unranked(r: seq<Standing>): (u: seq<Scored>)
    ensures |u| == |r|
    ensures forall i | 0 <= i < |r| :: u[i] == Scored(r[i].user, r[i].score)
  {
    seq(|r|, i requires 0 <= i < |r| => Scored(r[i].user, r[i].score))
  }

  /** `LIMIT limit`, then `rank: index + 1`. */
  function RankTop(sorted: seq<Scored>, limit: nat): (r: seq<Standing>)
    ensures |r| == if limit < |sorted| then limit else |sorted|
    ensures forall i | 0 <= i < |r| :: r[i].rank == i + 1
    ensures Unranked(r) == sorted[..|r|]
    ensures forall i | 0 <= i < |r| :: r[i] == Standing(sorted[i].user, sorted[i].score, i + 1)
  {
    var n := if limit < |sorted| then limit else |sorted|;
    seq(n, i requires 0 <= i < n => Standing(sorted[i].user, sorted[i].score, i + 1))
  }

  /** Sort, cut to `limit` and number: everything after the join. */
  function Rank(joined: seq<Scored>, limit: nat): (r: seq<Standing>)
    ensures |r| == if limit < |joined| then limit else |joined|
    ensures forall i | 0 <= i < |r| :: r[i].rank == i + 1
    ensures forall i, j | 0 <= i < j < |r| :: r[i].score >= r[j].score
    ensures multiset(Unranked(r)) <= multiset(joined)
    ensures forall i | 0 <= i < |r| :: Scored(r[i].user, r[i].score) in joined
  {
    var sorted := SortByScore(joined);
    var r := RankTop(sorted, limit);
    PrefixMultiset(sorted, |r|);
    forall i | 0 <= i < |r| ensures Scored(r[i].user, r[i].score) in joined {
      assert Unranked(r)[i] == sorted[i];
      assert sorted[i] in multiset(joined);
    }
    forall i, j | 0 <= i < j < |r| ensures r[i].score >= r[j].score {
      assert Unranked(r)[i] == sorted[i];
      assert Unranked(r)[j] == sorted[j];
    }
    r
  }

  /** Ranks run 1, 2, … down the list, and no standing outscores the one above it. */
  predicate RankedInOrder(r: seq<Standing>) {
    && (forall i | 0 <= i < |r| :: r[i].rank == i + 1)
    && (forall i, j | 0 <= i < j < |r| :: r[i].score >= r[j].score)
  }

  /** Every standing is the user or an accepted friend, from the users table, with a score its stat rows allow. */
  ghost predicate AllowedStandings(users: seq<User>, edges: seq<Friendship>, stats: seq<DailyStat>,
                                   userId: nat, today: int, r: seq<Standing>) {
    forall i | 0 <= i < |r| ::
      && r[i].user in users
      && (r[i].user.id == userId || IsFriend(edges, userId, r[i].user.id))
      && ScoreOption(stats, r[i].user.id, today, r[i].score)
  }

  /** `getLeaderboard(userId, limit)` on a snapshot of the three tables. */
  function GetLeaderboard(users: seq<User>, edges: seq<Friendship>, stats: seq<DailyStat>,
                          userId: nat, today: int, limit: nat): (r: seq<Standing>)
    ensures var joined := Joined(users, stats, CandidateIds(edges, userId), today);
      && |r| == (if limit < |joined| then limit else |joined|)
      && multiset(Unranked(r)) <= multiset(joined)
      && KeepsTop(joined, r)
    ensures RankedInOrder(r)
    ensures AllowedStandings(users, edges, stats, userId, today, r)
  {
    var joined := Joined(users, stats, CandidateIds(edges, userId), today);
    var r := Rank(joined, limit);
    StandingsOfJoin(users, edges, stats, userId, today, joined, r);
    RankKeepsTop(joined, limit);
    r
  }

  /** Every standing drawn from the join is the user or a friend, listed in the users table, with an allowed score. */
  lemma StandingsOfJoin(users: seq<User>, edges: seq<Friendship>, stats: seq<DailyStat>, userId: nat, today: int,
                        joined: seq<Scored>, r: seq<Standing>)
    requires forall x | x in joined ::
      x.user in users && x.user.id in CandidateIds(edges, userId) && ScoreOption(stats, x.user.id, today, x.score)
    requires forall i | 0 <= i < |r| :: Scored(r[i].user, r[i].score) in joined
    ensures AllowedStandings(users, edges, stats, userId, today, r)
  {
    forall i | 0 <= i < |r|
      ensures r[i].user in users
      ensures r[i].user.id == userId || IsFriend(edges, userId, r[i].user.id)
      ensures ScoreOption(stats, r[i].user.id, today, r[i].score)
    {
      var x := Scored(r[i].user, r[i].score);
      assert x in joined;
    }
  }

  /** `getLeaderboard(userId)` without a limit argument: at most ten standings. */
  function GetDefaultLeaderboard(users: seq<User>, edges: seq<Friendship>, stats: seq<DailyStat>,
                                 userId: nat, today: int): (r: seq<Standing>)
    ensures |r| <= DEFAULT_LIMIT
    ensures |Joined(users, stats, CandidateIds(edges, userId), today)| >= DEFAULT_LIMIT ==> |r| == DEFAULT_LIMIT
    ensures r == GetLeaderboard(users, edges, stats, userId, today, DEFAULT_LIMIT)
  {
    GetLeaderboard(users, edges, stats, userId, today, DEFAULT_LIMIT)
  }

  lemma PrefixMultiset<T>(s: seq<T>, k: nat)
    requires k <= |s|
    ensures multiset(s[..k]) <= multiset(s)
    ensures multiset(s) == multiset(s[..k]) + multiset(s[k..])
  {
    assert s == s[..k] + s[k..];
  }

  /**
   * What the limit cut off scores no higher than anything it kept: the
   * standings are the top `limit` rows of the join.
   */
  /** The standings are the top of `joined`: every row left out scores no higher than any row kept. */
  predicate KeepsTop(joined: seq<Scored>, r: seq<Standing>) {
    forall x | x in multiset(joined) - multiset(Unranked(r)) ::
      forall i | 0 <= i < |r| :: x.score <= r[i].score
  }

  lemma RankKeepsTop(joined: seq<Scored>, limit: nat)
    ensures KeepsTop(joined, Rank(joined, limit))
  {
    var r := Rank(joined, limit);
    var sorted := SortByScore(joined);
    var k := |r|;
    assert Unranked(r) == sorted[..k];
    PrefixMultiset(sorted, k);
    SortedTailIsLower(sorted, k);
    forall x | x in multiset(joined) - multiset(Unranked(r))
      ensures forall i | 0 <= i < |r| :: x.score <= r[i].score
    {
      assert x in multiset(sorted[k..]);
      forall i | 0 <= i < |r| ensures x.score <= r[i].score {
        assert Unranked(r)[i] == sorted[i];
      }
    }
  }

  /** In a sorted sequence nothing past position `k` outscores anything before it. */
  lemma SortedTailIsLower(sorted: seq<Scored>, k: nat)
    requires ByScoreDesc(sorted) && k <= |sorted|
    ensures forall x | x in sorted[k..] :: forall i | 0 <= i < k :: x.score <= sorted[i].score
  {
    forall x | x in sorted[k..] ensures forall i | 0 <= i < k :: x.score <= sorted[i].score {
      var j :| 0 <= j < |sorted[k..]| && sorted[k..][j] == x;
      assert sorted[k + j] == x;
    }
  }

  /** No two rows share a score. */
  predicate NoTies(s: seq<Scored>) {
    forall i, j | 0 <= i < j < |s| :: s[i].score != s[j].score
  }

  /**
   * Without ties the order is forced: any two score-sorted arrangements of
   * the same rows are the same sequence.
   */
  lemma {:induction false} SortedWithoutTiesIsUnique(x: seq<Scored>, y: seq<Scored>)
    requires ByScoreDesc(x) && ByScoreDesc(y) && multiset(x) == multiset(y)
    requires NoTies(x)
    ensures x == y
  {
    assert |x| == |multiset(x)| == |multiset(y)| == |y|;
    if x != [] {
      SameHead(x, y);
      TailMultiset(x, y);
      SortedTail(x);
      SortedTail(y);
      SortedWithoutTiesIsUnique(x[1..], y[1..]);
      assert x == [x[0]] + x[1..] && y == [y[0]] + y[1..];
    }
  }

  /** Two sorted arrangements of the same rows, without ties, start with the same row. */
  lemma SameHead(x: seq<Scored>, y: seq<Scored>)
    requires ByScoreDesc(x) && ByScoreDesc(y) && multiset(x) == multiset(y)
    requires NoTies(x) && x != [] && y != []
    ensures x[0] == y[0]
  {
    assert x[0] in multiset(y);
    assert y[0] in multiset(x);
    var j :| 0 <= j < |y| && y[j] == x[0];
    var i :| 0 <= i < |x| && x[i] == y[0];
    assert x[i].score == x[0].score;
  }

  lemma TailMultiset(x: seq<Scored>, y: seq<Scored>)
    requires x != [] && y != [] && x[0] == y[0] && multiset(x) == multiset(y)
    ensures multiset(x[1..]) == multiset(y[1..])
  {
    assert x == [x[0]] + x[1..];
    assert y == [y[0]] + y[1..];
    assert multiset(x) == multiset{x[0]} + multiset(x[1..]);
    assert multiset(y) == multiset{x[0]} + multiset(y[1..]);
    assert multiset(x[1..]) == multiset(x) - multiset{x[0]};
    assert multiset(y[1..]) == multiset(y) - multiset{x[0]};
  }

  lemma SortedTail(x: seq<Scored>)
    requires ByScoreDesc(x) && x != []
    ensures ByScoreDesc(x[1..])
    ensures NoTies(x) ==> NoTies(x[1..])
  {
    forall i, j | 0 <= i < j < |x[1..]| ensures x[1..][i] == x[i + 1] && x[1..][j] == x[j + 1] {
    }
  }

  /** Without ties the standings are fully determined: the rows in score order, numbered. */
  lemma RankWithoutTies(joined: seq<Scored>, sorted: seq<Scored>, limit: nat)
    requires ByScoreDesc(sorted) && NoTies(sorted) && multiset(sorted) == multiset(joined)
    ensures Rank(joined, limit) == RankTop(sorted, limit)
  {
    SortedWithoutTiesIsUnique(sorted, SortByScore(joined));
  }

  /** Four friends scoring 92, 85, 78 and 72 are ranked 1 to 4 in that order. */
  lemma RankExample(ua: User, ub: User, uc: User, ud: User, joined: seq<Scored>, limit: nat)
    requires joined == [Scored(uc, 78), Scored(ua, 92), Scored(ud, 72), Scored(ub, 85)]
    requires limit >= 4
    ensures Rank(joined, limit)
      == [Standing(ua, 92, 1), Standing(ub, 85, 2), Standing(uc, 78, 3), Standing(ud, 72, 4)]
  {
    var a, b, c, d := joined[1], joined[3], joined[0], joined[2];
    StrictlyDescendingFour(a, b, c, d);
    assert multiset(joined) == multiset([a, b, c, d]) by {
      assert joined == [c] + [a] + [d] + [b];
    }
    RankWithoutTies(joined, [a, b, c, d], limit);
    NumberFour(a, b, c, d, limit);
  }

  lemma StrictlyDescendingFour(a: Scored, b: Scored, c: Scored, d: Scored)
    requires a.score > b.score > c.score > d.score
    ensures ByScoreDesc([a, b, c, d]) && NoTies([a, b, c, d])
  {
  }

  lemma NumberFour(a: Scored, b: Scored, c: Scored, d: Scored, limit: nat)
    requires limit >= 4
    ensures RankTop([a, b, c, d], limit)
      == [Standing(a.user, a.score, 1), Standing(b.user, b.score, 2), Standing(c.user, c.score, 3), Standing(d.user, d.score, 4)]
  {
  }
}

=== FILE: numeric.dfy ===
/**
 * Integer renderings of the JavaScript number helpers the application uses:
 * `Math.round` of a quotient, `Math.max`, `Number.prototype.toString` on
 * non-negative integers and `String.prototype.padStart`.
 */
module Numeric {

  function Max(a: int, b: int): (r: int)
    ensures r >= a && r >= b
    ensures r == a || r == b
  {
    if a >= b then a else b
  }

  /** `Math.round(n / d)` for a positive divisor: the nearest integer, a half rounded up. */
  function RoundDiv(n: int, d: int): (r: int)
    requires d > 0
    ensures 2 * d * r - d <= 2 * n < 2 * d * r + d
  {
    var q := (2 * n + d) / (2 * d);
    assert 2 * n + d == 2 * d * q + (2 * n + d) % (2 * d);
    q
  }

  /** At most one integer lies within half a unit of `n / d`, so `RoundDiv` is the only rounding. */
  lemma RoundDivUnique(n: int, d: int, r: int)
    requires d > 0
    requires 2 * d * r - d <= 2 * n < 2 * d * r + d
    ensures r == RoundDiv(n, d)
  {
    var q := RoundDiv(n, d);
    assert d * (r - q) < d && d * (q - r) < d;
    BelowOneFactor(d, r - q);
    BelowOneFactor(d, q - r);
  }

  lemma BelowOneFactor(d: int, x: int)
    requires d > 0
    ensures d * x < d ==> x < 1
  {
    if x >= 1 {
      assert d * x == d + d * (x - 1);
    }
  }

  predicate IsDigit(c: char) {
    '0' <= c <= '9'
  }

  predicate AllDigits(s: string) {
    forall i | 0 <= i < |s| :: IsDigit(s[i])
  }

  function DigitChar(d: nat): (c: char)
    requires d < 10
    ensures IsDigit(c)
    ensures (c as int) - ('0' as int) == d
  {
    ['0', '1', '2', '3', '4', '5', '6', '7', '8', '9'][d]
  }

  function DigitValue(c: char): (d: nat)
    requires IsDigit(c)
    ensures d < 10
  {
    (c as int) - ('0' as int)
  }

  /** The decimal value of a string of digits, read left to right. */
  function ParseDecimal(s: string): (n: nat)
    requires AllDigits(s)
  {
    if s == [] then 0 else ParseDecimal(s[..|s| - 1]) * 10 + DigitValue(s[|s| - 1])
  }

  /** `n.toString()` for a non-negative integer: its decimal digits, no leading zero. */
  function NatToString(n: nat): (s: string)
    ensures |s| > 0 && AllDigits(s)
    ensures |s| > 1 ==> s[0] != '0'
    ensures n < 10 <==> |s| == 1
    ensures n < 100 ==> |s| <= 2
    ensures ParseDecimal(s) == n
  {
    if n < 10 then
      [DigitChar(n)]
    else
      var prefix := NatToString(n / 10);
      var s := prefix + [DigitChar(n % 10)];
      assert s[..|s| - 1] == prefix;
      s
  }

  /** `s.padStart(width, fill)`: `fill` prepended until `s` is `width` long. */
  function PadStart(s: string, width: nat, fill: char): (r: string)
    ensures |r| == if |s| >= width then |s| else width
    ensures r[|r| - |s|..] == s
    ensures forall i | 0 <= i < |r| - |s| :: r[i] == fill
  {
    if |s| >= width then s else seq(width - |s|, _ => fill) + s
  }

  /** Leading zeros do not change a decimal value. */
  lemma {:induction false} ParseLeadingZeros(z: string, s: string)
    requires forall i | 0 <= i < |z| :: z[i] == '0'
    requires AllDigits(s)
    ensures AllDigits(z + s)
    ensures ParseDecimal(z + s) == ParseDecimal(s)
    decreases |s|
  {
    if s == [] {
      ParseZeros(z);
      assert z + s == z;
    } else {
      var t := z + s;
      assert t[..|t| - 1] == z + s[..|s| - 1];
      assert t[|t| - 1] == s[|s| - 1];
      ParseLeadingZeros(z, s[..|s| - 1]);
    }
  }

  lemma {:induction false} ParseZeros(z: string)
    requires forall i | 0 <= i < |z| :: z[i] == '0'
    ensures AllDigits(z)
    ensures ParseDecimal(z) == 0
  {
    if z != [] {
      ParseZeros(z[..|z| - 1]);
    }
  }

  /** A zero-padded rendering of `n` still reads back as `n`. */
  lemma PaddedRoundTrip(n: nat, width: nat)
    ensures AllDigits(PadStart(NatToString(n), width, '0'))
    ensures ParseDecimal(PadStart(NatToString(n), width, '0')) == n
  {
    var s := NatToString(n);
    var r := PadStart(s, width, '0');
    var z := r[..|r| - |s|];
    assert r == z + s;
    ParseLeadingZeros(z, s);
  }
}

=== FILE: onboarding.dfy ===
/**
 * The seven-step onboarding wizard: its step counter, the per-step gates on
 * the Continue button, the problem multi-select, the signup payload and the
 * lifestyle predictions shown on the last step.
 */
module Onboarding {
  import opened Seqs
  import opened Numeric

  const TOTAL_STEPS: int := 7

  /** The wizard's form state; hours, steps and minutes come from range sliders. */
  datatype Data = Data(
    name: string,
    username: string,
    password: string,
    currentScreenTime: int,
    problems: seq<string>,
    dailyStepGoal: int,
    activeMinutesGoal: int)

  function InitialData(): (d: Data)
    ensures d.name == [] && d.username == [] && d.password == [] && d.problems == []
    ensures d.currentScreenTime == 4 && d.dailyStepGoal == 10000 && d.activeMinutesGoal == 30
  {
    Data("", "", "", 4, [], 10000, 30)
  }

  // ----- the step counter -----

  /** `handleNext`: one step forward, except on the last step. */
  function NextStep(step: int): (r: int)
    ensures step < TOTAL_STEPS ==> r == step + 1
    ensures step >= TOTAL_STEPS ==> r == step
    ensures 1 <= step <= TOTAL_STEPS ==> 1 <= r <= TOTAL_STEPS
  {
    if step < TOTAL_STEPS then step + 1 else step
  }

  /** `n` presses of Next from step 1. */
  function PressNext(n: nat): int {
    if n == 0 then 1 else NextStep(PressNext(n - 1))
  }

  /** From the first step, `n` presses reach step `1 + n`, stopping at the last. */
  lemma {:induction false} PressNextStops(n: nat)
    ensures PressNext(n) == if n < TOTAL_STEPS then 1 + n else TOTAL_STEPS
  {
    if n > 0 {
      PressNextStops(n - 1);
    }
  }

  // ----- the problem multi-select -----

  predicate NoDuplicates(s: seq<string>) {
    Distinct(s)
  }

  /** `toggleProblem`: drop the id if it is selected, append it otherwise. */
  function ToggleProblem(problems: seq<string>, id: string): (r: seq<string>)
    ensures id in r <==> id !in problems
    ensures forall x | x != id :: x in r <==> x in problems
    ensures NoDuplicates(problems) ==> NoDuplicates(r)
  {
    if id in problems then
      var r := Filter(problems, (p: string) => p != id);
      FilterDistinctIf(problems, id);
      r
    else
      problems + [id]
  }

  lemma FilterDistinctIf(problems: seq<string>, id: string)
    ensures NoDuplicates(problems) ==> NoDuplicates(Filter(problems, (p: string) => p != id))
  {
    if NoDuplicates(problems) {
      FilterDistinct(problems, (p: string) => p != id);
    }
  }

  /** Selecting and deselecting an id that was not selected gives back the very same list. */
  lemma ToggleTwiceAbsent(problems: seq<string>, id: string)
    requires id !in problems
    ensures ToggleProblem(ToggleProblem(problems, id), id) == problems
  {
    var keep := (p: string) => p != id;
    FilterAppend(problems, [id], keep);
    FilterAllKept(problems, keep);
    assert Filter([id], keep) == [];
  }

  /** Toggling twice restores the selection as a set; a deselected id comes back at the end. */
  lemma ToggleTwiceSameSet(problems: seq<string>, id: string)
    ensures forall x :: x in ToggleProblem(ToggleProblem(problems, id), id) <==> x in problems
  {
  }

  // ----- the Continue gates -----

  /** The characters `String.prototype.trim` removes: white space and line terminators. */
  predicate IsJsWhitespace(c: char) {
    || c == '\t' || c == '\n' || c == '\U{000B}' || c == '\U{000C}' || c == '\r' || c == ' '
    || c == '\U{00A0}' || c == '\U{1680}' || ('\U{2000}' <= c <= '\U{200A}')
    || c == '\U{2028}' || c == '\U{2029}' || c == '\U{202F}' || c == '\U{205F}'
    || c == '\U{3000}' || c == '\U{FEFF}'
  }

  /** The string with white space removed from the front. */
  function TrimStart(s: string): (r: string)
    ensures |r| <= |s| && r == s[|s| - |r|..]
    ensures forall i | 0 <= i < |s| - |r| :: IsJsWhitespace(s[i])
    ensures r == [] || !IsJsWhitespace(r[0])
  {
    if s != [] && IsJsWhitespace(s[0]) then TrimStart(s[1..]) else s
  }

  /** The string with white space removed from the back. */
  function TrimEnd(s: string): (r: string)
    ensures |r| <= |s| && r == s[..|r|]
    ensures forall i | |r| <= i < |s| :: IsJsWhitespace(s[i])
    ensures r == [] || !IsJsWhitespace(r[|r| - 1])
  {
    if s != [] && IsJsWhitespace(s[|s| - 1]) then TrimEnd(s[..|s| - 1]) else s
  }

  /** `s.trim()`. */
  function Trim(s: string): (r: string)
    ensures |r| <= |s|
    ensures r == [] || (!IsJsWhitespace(r[0]) && !IsJsWhitespace(r[|r| - 1]))
    ensures exists i | 0 <= i :: TrimmedAt(s, r, i)
  {
    var t := TrimStart(s);
    var r := TrimEnd(t);
    TrimStartEndSlice(s, t, r);
    r
  }

  /**
   * Cutting white space from the front (leaving `t`) and then from the back
   * (leaving `r`) keeps the slice of `s` that starts where `t` starts.
   */
  lemma TrimStartEndSlice(s: string, t: string, r: string)
    requires |t| <= |s| && t == s[|s| - |t|..]
    requires forall k | 0 <= k < |s| - |t| :: IsJsWhitespace(s[k])
    requires |r| <= |t| && r == t[..|r|]
    requires forall k | |r| <= k < |t| :: IsJsWhitespace(t[k])
    ensures TrimmedAt(s, r, |s| - |t|)
  {
    var i := |s| - |t|;
    assert r == s[i..i + |r|];
    forall k | i + |r| <= k < |s|
      ensures IsJsWhitespace(s[k])
    {
      assert s[k] == t[k - i];
    }
  }

  /** `r` is `s` from position `i` on with only white space cut off at either end. */
  predicate TrimmedAt(s: string, r: string, i: nat) {
    && i + |r| <= |s|
    && r == s[i..i + |r|]
    && (forall k | 0 <= k < i :: IsJsWhitespace(s[k]))
    && (forall k | i + |r| <= k < |s| :: IsJsWhitespace(s[k]))
  }

  /** The trimmed name is empty exactly when the name is white space only. */
  lemma TrimEmptyIff(s: string)
    ensures Trim(s) == [] <==> forall i | 0 <= i < |s| :: IsJsWhitespace(s[i])
  {
    var r := Trim(s);
    var i :| 0 <= i && TrimmedAt(s, r, i);
    if r != [] {
      assert s[i] == r[0];
    }
  }

  /** Step 2: `disabled={!data.name.trim()}`. */
  predicate NameGate(d: Data)
    ensures NameGate(d) <==> exists i | 0 <= i < |d.name| :: !IsJsWhitespace(d.name[i])
  {
    TrimEmptyIff(d.name);
    Trim(d.name) != []
  }

  /** Step 3: `disabled={!data.username || data.password.length < 6}`. */
  predicate AccountGate(d: Data) {
    d.username != [] && |d.password| >= 6
  }

  /** Step 5: `disabled={data.problems.length === 0}`. */
  predicate ProblemsGate(d: Data) {
    |d.problems| > 0
  }

  /**
   * Whether the Continue button of `step` is enabled; the other steps never
   * disable it. The contract only says which gate each step consults: what
   * each gate accepts is stated by `NameGate`, `AccountGate` and `ProblemsGate`.
   */
  predicate CanContinue(step: int, d: Data)
    ensures CanContinue(step, d) <==>
      && (step == 2 ==> NameGate(d))
      && (step == 3 ==> d.username != [] && |d.password| >= 6)
      && (step == 5 ==> d.problems != [])
  {
    if step == 2 then NameGate(d)
    else if step == 3 then AccountGate(d)
    else if step == 5 then ProblemsGate(d)
    else true
  }

  // ----- the wizard as a whole -----

  datatype Wizard = Wizard(step: int, data: Data)

  /** The user's actions; each input exists only on its own step. */
  datatype Event =
    | Continue
    | EditName(name: string)
    | EditUsername(username: string)
    | EditPassword(password: string)
    | SlideScreenTime(hours: int)
    | PickProblem(id: string)
    | SlideStepGoal(steps: int)
    | SlideActiveGoal(minutes: int)

  /** The values a range slider can report: `min..max` in multiples of `step` from `min`. */
  predicate SliderAllows(e: Event) {
    match e
    case SlideScreenTime(h) => 1 <= h <= 16
    case SlideStepGoal(n) => 1000 <= n <= 20000 && n % 1000 == 0
    case SlideActiveGoal(m) => 10 <= m <= 120 && m % 5 == 0
    case _ => true
  }

  function Start(): (w: Wizard)
    ensures w.step == 1 && w.data == InitialData()
  {
    Wizard(1, InitialData())
  }

  /** One event; an input that is not on screen, or a disabled button, does nothing. */
  function Apply(w: Wizard, e: Event): (r: Wizard)
    ensures r.step == w.step || (e.Continue? && CanContinue(w.step, w.data) && r.step == NextStep(w.step))
    ensures e.Continue? ==> r.data == w.data
  {
    var d := w.data;
    match e
    case Continue => if CanContinue(w.step, d) then w.(step := NextStep(w.step)) else w
    case EditName(s) => if w.step == 2 then w.(data := d.(name := s)) else w
    case EditUsername(s) => if w.step == 3 then w.(data := d.(username := s)) else w
    case EditPassword(s) => if w.step == 3 then w.(data := d.(password := s)) else w
    case SlideScreenTime(h) => if w.step == 4 then w.(data := d.(currentScreenTime := h)) else w
    case PickProblem(id) => if w.step == 5 then w.(data := d.(problems := ToggleProblem(d.problems, id))) else w
    case SlideStepGoal(n) => if w.step == 6 then w.(data := d.(dailyStepGoal := n)) else w
    case SlideActiveGoal(m) => if w.step == 6 then w.(data := d.(activeMinutesGoal := m)) else w
  }

  /**
   * What holds on every reachable screen: the step is in range, the sliders
   * hold slider values, and every gate already passed still holds, because
   * the wizard never goes back to the step that edits it.
   */
  predicate Reachable(w: Wizard) {
    && 1 <= w.step <= TOTAL_STEPS
    && 1 <= w.data.currentScreenTime <= 16
    && 1000 <= w.data.dailyStepGoal <= 20000
    && 10 <= w.data.activeMinutesGoal <= 120
    && NoDuplicates(w.data.problems)
    && (w.step > 2 ==> NameGate(w.data))
    && (w.step > 3 ==> AccountGate(w.data))
    && (w.step > 5 ==> ProblemsGate(w.data))
  }

  lemma ApplyKeepsReachable(w: Wizard, e: Event)
    requires Reachable(w) && SliderAllows(e)
    ensures Reachable(Apply(w, e))
  {
  }

  function Run(w: Wizard, events: seq<Event>): Wizard
    decreases |events|
  {
    if events == [] then w else Run(Apply(w, events[0]), events[1..])
  }

  lemma {:induction false} RunKeepsReachable(w: Wizard, events: seq<Event>)
    requires Reachable(w)
    requires forall i | 0 <= i < |events| :: SliderAllows(events[i])
    ensures Reachable(Run(w, events))
    decreases |events|
  {
    if events != [] {
      ApplyKeepsReachable(w, events[0]);
      RunKeepsReachable(Apply(w, events[0]), events[1..]);
    }
  }

  // ----- the signup payload -----

  /** `Math.max(1, h - 1) * 60`: one hour less than today's usage, but at least an hour, in minutes. */
  function DailyScreenTimeGoal(h: int): (r: int)
    ensures r >= 60 && r % 60 == 0
    ensures h >= 2 ==> r == (h - 1) * 60
    ensures h <= 2 ==> r == 60
    ensures 1 <= h <= 16 ==> 60 <= r <= 900
  {
    Max(1, h - 1) * 60
  }

  /** Below two hours a day the goal is an hour; above it, strictly less than today's usage. */
  lemma GoalBelowUsage(h: int)
    ensures h >= 2 ==> DailyScreenTimeGoal(h) < h * 60
    ensures h <= 1 ==> DailyScreenTimeGoal(h) >= h * 60
  {
  }

  datatype Signup = Signup(
    name: string,
    username: string,
    password: string,
    dailyScreenTimeGoal: int,
    problems: seq<string>,
    dailyStepGoal: int,
    activeMinutesGoal: int,
    onboardingCompleted: bool)

  /** The body of `POST /api/auth/signup` built from the form. */
  function SignupRequest(d: Data): (r: Signup)
    ensures r.dailyScreenTimeGoal == DailyScreenTimeGoal(d.currentScreenTime)
    ensures r.onboardingCompleted
    ensures r.name == d.name && r.username == d.username && r.password == d.password
    ensures r.problems == d.problems
    ensures r.dailyStepGoal == d.dailyStepGoal && r.activeMinutesGoal == d.activeMinutesGoal
  {
    Signup(d.name, d.username, d.password, DailyScreenTimeGoal(d.currentScreenTime),
           d.problems, d.dailyStepGoal, d.activeMinutesGoal, true)
  }

  /**
   * Whatever the user did on the way, the request sent from the last step
   * carries a real name, an account and at least one problem.
   */
  lemma SignupFromLastStepIsComplete(events: seq<Event>)
    requires forall i | 0 <= i < |events| :: SliderAllows(events[i])
    requires Run(Start(), events).step == TOTAL_STEPS
    ensures var r := SignupRequest(Run(Start(), events).data);
      && Trim(r.name) != []
      && r.username != [] && |r.password| >= 6
      && |r.problems| > 0 && NoDuplicates(r.problems)
      && 60 <= r.dailyScreenTimeGoal <= 900
  {
    RunKeepsReachable(Start(), events);
  }

  // ----- the predictions -----

  /** `currentScreenTime * 365`: hours on the phone in a year. */
  function YearlyHours(h: int): (r: int)
    ensures h >= 0 ==> r >= 0
    ensures r % 365 == 0 && r / 365 == h
  {
    h * 365
  }

  /** `Math.round(yearly / 12)`. */
  function MonthlyIncrease(h: int): (r: int)
    ensures 24 * r - 12 <= 2 * YearlyHours(h) < 24 * r + 12
  {
    RoundDiv(YearlyHours(h), 12)
  }

  /** `Math.round(yearly / 24)`: the year's phone time in whole days. */
  function FullDays(h: int): (r: int)
    ensures 48 * r - 24 <= 2 * YearlyHours(h) < 48 * r + 24
  {
    RoundDiv(YearlyHours(h), 24)
  }

  /** At the default four hours a day: 1460 hours, 122 a month, 61 days. */
  lemma DefaultPredictions()
    ensures YearlyHours(4) == 1460 && MonthlyIncrease(4) == 122 && FullDays(4) == 61
  {
    RoundDivUnique(1460, 12, 122);
    RoundDivUnique(1460, 24, 61);
  }

  /** `Math.max(0, (h - 3) * 30)`: the sleep lost, zero up to three hours a day. */
  function SleepLoss(h: int): (r: int)
    ensures r >= 0
    ensures h <= 3 <==> r == 0
    ensures h > 3 ==> r == (h - 3) * 30
  {
    Max(0, (h - 3) * 30)
  }

  /** More screen time never predicts less lost sleep. */
  lemma SleepLossMonotonic(h1: int, h2: int)
    requires h1 <= h2
    ensures SleepLoss(h1) <= SleepLoss(h2)
  {
  }

  datatype Risk = Low | Medium | High

  /** The eye-strain band: above six hours High, above four Medium, otherwise Low. */
  function EyeStrainRisk(h: int): (r: Risk)
    ensures r == High <==> h > 6
    ensures r == Medium <==> 4 < h <= 6
    ensures r == Low <==> h <= 4
  {
    if h > 6 then High else if h > 4 then Medium else Low
  }

  function RiskLevel(r: Risk): nat {
    match r
    case Low => 0
    case Medium => 1
    case High => 2
  }

  /** More screen time never predicts a lower risk. */
  lemma EyeStrainMonotonic(h1: int, h2: int)
    requires h1 <= h2
    ensures RiskLevel(EyeStrainRisk(h1)) <= RiskLevel(EyeStrainRisk(h2))
  {
  }
}

=== FILE: phone_input.dfy ===
/**
 * The phone-number input: a table of dialling countries, the sanitiser that
 * keeps the typed digits up to the country's maximum, the display that
 * hides the dial code, and the country switch.
 */
module PhoneInput {
  import opened Wrappers
  import opened Numeric
  import opened Seqs

  /** One selectable country; the flag glyph is presentation only and not modelled. */
  datatype Country = Country(code: string, name: string, minLength: nat, maxLength: nat)

  /** The `countries` table, in display order. */
  function Countries(): (r: seq<Country>)
    ensures |r| == 10
  {
    [ Country("+1", "United States", 10, 10),
      Country("+44", "United Kingdom", 10, 10),
      Country("+91", "India", 10, 10),
      Country("+86", "China", 11, 11),
      Country("+81", "Japan", 10, 10),
      Country("+49", "Germany", 10, 11),
      Country("+33", "France", 9, 9),
      Country("+61", "Australia", 9, 9),
      Country("+55", "Brazil", 11, 11),
      Country("+7", "Russia", 10, 10) ]
  }

  /** A dial code is a plus sign followed by at least one digit. */
  predicate IsDialCode(code: string) {
    |code| >= 2 && code[0] == '+' && AllDigits(code[1..])
  }

  predicate WellFormed(c: Country) {
    IsDialCode(c.code) && 0 < c.minLength <= c.maxLength
  }

  /** Every entry is well formed and no two entries share a dial code. */
  lemma CountriesWellFormed()
    ensures forall i | 0 <= i < |Countries()| :: WellFormed(Countries()[i])
    ensures forall i, j | 0 <= i < j < |Countries()| :: Countries()[i].code != Countries()[j].code
  {
    CountriesEachWellFormed();
    CountryCodesDiffer();
  }

  lemma CountriesEachWellFormed()
    ensures forall i | 0 <= i < |Countries()| :: WellFormed(Countries()[i])
  {
    assert AllDigits("1") && AllDigits("44") && AllDigits("91") && AllDigits("86") && AllDigits("81");
    assert AllDigits("49") && AllDigits("33") && AllDigits("61") && AllDigits("55") && AllDigits("7");
  }

  lemma CountryCodesDiffer()
    ensures forall i, j | 0 <= i < j < |Countries()| :: Countries()[i].code != Countries()[j].code
  {
  }

  /** `useState(countries[0])`: the United States. */
  function InitialCountry(): (c: Country)
    ensures c.code == "+1" && c.maxLength == 10
  {
    Countries()[0]
  }

  /** `countries.find(c => c.code === code)`. */
  function FindCountry(code: string): (r: Option<Country>)
    ensures r.Some? ==> r.value in Countries() && r.value.code == code
    ensures r.None? ==> forall c | c in Countries() :: c.code != code
  {
    FindIn(Countries(), code)
  }

  function FindIn(cs: seq<Country>, code: string): (r: Option<Country>)
    ensures r.Some? ==> r.value in cs && r.value.code == code
    ensures r.None? ==> forall c | c in cs :: c.code != code
  {
    if cs == [] then None
    else if cs[0].code == code then Some(cs[0])
    else
      assert forall c | c in cs :: c == cs[0] || c in cs[1..];
      FindIn(cs[1..], code)
  }

  // ----- the sanitiser -----

  /** `s.replace(/\D/g, '')`: the ASCII digits of `s`, in order. */
  function DigitsOf(s: string): (r: string)
    ensures AllDigits(r) && |r| <= |s|
    ensures forall c | c in r :: c in s
    ensures forall c | c in s && IsDigit(c) :: c in r
    ensures r == Filter(s, IsDigit)
    ensures SubseqOf(r, s)
  {
    FilterIsSubseq(s, IsDigit);
    if s == [] then []
    else (if IsDigit(s[0]) then [s[0]] else []) + DigitsOf(s[1..])
  }

  /** `s.slice(0, n)`. */
  function Take(s: string, n: nat): (r: string)
    ensures |r| == if |s| <= n then |s| else n
    ensures r == s[..|r|]
  {
    if |s| <= n then s else s[..n]
  }

  /** `handleNumberChange`: the dial code followed by at most `maxLength` of the typed digits. */
  function NumberChange(country: Country, input: string): (r: string)
    ensures |r| >= |country.code|
    ensures r[..|country.code|] == country.code
    ensures var rest := r[|country.code|..];
      && AllDigits(rest)
      && |rest| == (if |DigitsOf(input)| <= country.maxLength then |DigitsOf(input)| else country.maxLength)
      && rest == DigitsOf(input)[..|rest|]
  {
    var r := country.code + Take(DigitsOf(input), country.maxLength);
    assert r[|country.code|..] == Take(DigitsOf(input), country.maxLength);
    r
  }

  /** The digit filter leaves a string of digits alone. */
  lemma {:induction false} DigitsOfDigits(s: string)
    requires AllDigits(s)
    ensures DigitsOf(s) == s
  {
    if s != [] {
      DigitsOfDigits(s[1..]);
      assert s == [s[0]] + s[1..];
    }
  }

  /** The digits a user keeps are exactly what the sanitiser keeps: a number already in range is reproduced. */
  lemma SanitiserIsIdempotent(country: Country, d: string)
    requires AllDigits(d) && |d| <= country.maxLength
    ensures NumberChange(country, d) == country.code + d
  {
    DigitsOfDigits(d);
  }

  // ----- the display -----

  /** `s` has `pat` starting at position `i`. */
  predicate OccursAt(s: string, pat: string, i: nat) {
    i + |pat| <= |s| && s[i..i + |pat|] == pat
  }

  /** The first position, from `from` on, where `pat` occurs. */
  function IndexOfFrom(s: string, pat: string, from: nat): (r: Option<nat>)
    ensures r.Some? ==> from <= r.value && OccursAt(s, pat, r.value)
    ensures r.Some? ==> forall j | from <= j < r.value :: !OccursAt(s, pat, j)
    ensures r.None? ==> forall j | from <= j :: !OccursAt(s, pat, j)
    decreases |s| - from
  {
    if from + |pat| > |s| then None
    else if s[from..from + |pat|] == pat then Some(from)
    else IndexOfFrom(s, pat, from + 1)
  }

  /** `s.replace(pat, rep)` with a string pattern: only the first occurrence is replaced. */
  function ReplaceFirst(s: string, pat: string, rep: string): (r: string)
    ensures IndexOfFrom(s, pat, 0).None? ==> r == s
    ensures IndexOfFrom(s, pat, 0).Some? ==>
      var i := IndexOfFrom(s, pat, 0).value;
      r == s[..i] + rep + s[i + |pat|..]
  {
    match IndexOfFrom(s, pat, 0)
    case None => s
    case Some(i) => s[..i] + rep + s[i + |pat|..]
  }

  /** `displayNumber`: the value with the selected dial code taken out. */
  function DisplayNumber(country: Country, value: string): (r: string)
    ensures |r| <= |value|
    ensures |country.code| <= |value| && value[..|country.code|] == country.code ==> value == country.code + r
    ensures IndexOfFrom(value, country.code, 0).None? ==> r == value
  {
    assert |country.code| <= |value| && value[..|country.code|] == country.code ==>
      OccursAt(value, country.code, 0) && value == country.code + value[|country.code|..];
    ReplaceFirst(value, country.code, "")
  }

  /** The display shows exactly the digits that follow the dial code. */
  lemma DisplayRoundTrip(country: Country, d: string)
    ensures DisplayNumber(country, country.code + d) == d
  {
    var v := country.code + d;
    assert OccursAt(v, country.code, 0);
    assert v[|country.code|..] == d;
  }

  /** Re-typing what is on display changes nothing. */
  lemma RetypeDisplayIsStable(country: Country, input: string)
    ensures var v := NumberChange(country, input);
      NumberChange(country, DisplayNumber(country, v)) == v
  {
    var v := NumberChange(country, input);
    var d := v[|country.code|..];
    assert v == country.code + d;
    DisplayRoundTrip(country, d);
    SanitiserIsIdempotent(country, d);
  }

  // ----- the country switch, as written -----

  /** The length of the run of digits `s` starts with. */
  function DigitRun(s: string): (n: nat)
    ensures n <= |s| && AllDigits(s[..n])
    ensures n < |s| ==> !IsDigit(s[n])
  {
    if s != [] && IsDigit(s[0]) then
      var n := 1 + DigitRun(s[1..]);
      assert s[..n] == [s[0]] + s[1..][..n - 1];
      n
    else 0
  }

  /** `value.replace(/^\+\d+/, '')`: drops a leading plus sign and every digit after it. */
  function StripLeadingDialRun(value: string): (r: string)
    ensures r == value || (|value| >= 2 && value[0] == '+' && IsDigit(value[1]))
    ensures |value| >= 2 && value[0] == '+' && IsDigit(value[1]) ==>
      && |r| < |value| - 1
      && r == value[|value| - |r|..]
      && AllDigits(value[1..|value| - |r|])
      && (r == [] || !IsDigit(r[0]))
  {
    if |value| >= 2 && value[0] == '+' && IsDigit(value[1]) then
      var n := DigitRun(value[1..]);
      assert value[1..][..n] == value[1..1 + n];
      value[1 + n..]
    else value
  }

  /**
   * `handleCountryChange` as written: `None` when the code is not in the
   * table (no `onChange`), else the new country and the value it emits.
   */
  function CountryChange(value: string, code: string): (r: Option<(Country, string)>)
    ensures r.None? <==> FindCountry(code).None?
    ensures r.Some? ==> r.value.0 == FindCountry(code).value
    ensures r.Some? ==> r.value.1 == code + StripLeadingDialRun(value)
  {
    match FindCountry(code)
    case None => None
    case Some(c) => Some((c, c.code + StripLeadingDialRun(value)))
  }

  /** A plus sign followed only by digits is stripped entirely. */
  lemma StripAllDigits(v: string)
    requires |v| >= 2 && v[0] == '+' && AllDigits(v[1..])
    ensures StripLeadingDialRun(v) == []
  {
    assert DigitRun(v[1..]) == |v[1..]|;
  }

  /**
   * Because the dial code and the number are both digits, the regex eats
   * the number too: switching country on any sanitised value leaves only
   * the new dial code.
   */
  lemma CountryChangeDropsNumber(prev: Country, input: string, code: string)
    requires IsDialCode(prev.code)
    ensures var r := CountryChange(NumberChange(prev, input), code);
      r.Some? ==> r.value.1 == code
  {
    var v := NumberChange(prev, input);
    CodeAndDigitsStrip(prev.code, v);
    assert code + [] == code;
  }

  /** A dial code followed by digits is a plus sign followed only by digits. */
  lemma CodeAndDigitsStrip(dial: string, v: string)
    requires IsDialCode(dial)
    requires |v| >= |dial| && v[..|dial|] == dial && AllDigits(v[|dial|..])
    ensures StripLeadingDialRun(v) == []
  {
    var rest := v[|dial|..];
    assert v == dial + rest;
    assert v[1..] == dial[1..] + rest;
    AllDigitsConcat(dial[1..], rest);
    StripAllDigits(v);
  }

  lemma AllDigitsConcat(a: string, b: string)
    requires AllDigits(a) && AllDigits(b)
    ensures AllDigits(a + b)
  {
  }

  /** A US number, typed and then switched to the UK, loses its digits. */
  lemma CountryChangeCounterexample(typed: string, code: string)
    requires typed == "5551234567" && code == "+44"
    ensures NumberChange(InitialCountry(), typed) == "+1" + typed
    ensures CountryChange(NumberChange(InitialCountry(), typed), code).Some?
    ensures CountryChange(NumberChange(InitialCountry(), typed), code).value.1 == "+44"
  {
    var us := InitialCountry();
    assert AllDigits(typed);
    SanitiserIsIdempotent(us, typed);
    InitialCodeIsDialCode(us);
    UkIsListed(code);
    CountryChangeDropsNumber(us, typed, code);
  }

  lemma InitialCodeIsDialCode(us: Country)
    requires us == InitialCountry()
    ensures IsDialCode(us.code)
  {
    assert us.code[1..] == "1";
  }

  lemma UkIsListed(code: string)
    requires code == "+44"
    ensures FindCountry(code).Some?
  {
    var cs := Countries();
    assert cs[1].code == code;
    assert cs[1] in cs;
  }

  // ----- the country switch, keeping the number -----

  /**
   * The switch as its `numberPart` variable intends: remove the currently
   * selected dial code (as the display does) and put the new one in front.
   */
  function CountryChangeKeepingNumber(selected: Country, value: string, code: string): (r: Option<(Country, string)>)
    ensures r.None? <==> FindCountry(code).None?
    ensures r.Some? ==> r.value.0.code == code
  {
    match FindCountry(code)
    case None => None
    case Some(c) => Some((c, c.code + DisplayNumber(selected, value)))
  }

  /** After the corrected switch the display still shows the same digits. */
  lemma SwitchKeepsNumber(selected: Country, input: string, code: string, k: nat)
    requires k < |Countries()| && code == Countries()[k].code
    ensures var v := NumberChange(selected, input);
      var r := CountryChangeKeepingNumber(selected, v, code);
      r.Some? && DisplayNumber(r.value.0, r.value.1) == DisplayNumber(selected, v)
  {
    assert Countries()[k] in Countries();
    var v := NumberChange(selected, input);
    var c := FindCountry(code).value;
    DisplayRoundTrip(c, DisplayNumber(selected, v));
  }

  // ----- the component -----

  /** The selected country and the controlled `value` the parent feeds back. */
  datatype PhoneState = PhoneState(selected: Country, value: string)

  datatype PhoneEvent = Typed(input: string) | Selected(code: string)

  /** One event, with the parent echoing whatever `onChange` reports; the switch is the one as written. */
  function Handle(s: PhoneState, e: PhoneEvent): (r: PhoneState)
    ensures e.Typed? ==> r.selected == s.selected
    ensures e.Typed? ==> DisplayNumber(r.selected, r.value) == Take(DigitsOf(e.input), s.selected.maxLength)
    ensures e.Selected? && FindCountry(e.code).None? ==> r == s
    ensures e.Selected? && FindCountry(e.code).Some? ==> r.selected == FindCountry(e.code).value
  {
    match e
    case Typed(input) =>
      DisplayRoundTrip(s.selected, Take(DigitsOf(input), s.selected.maxLength));
      s.(value := NumberChange(s.selected, input))
    case Selected(code) =>
      match CountryChange(s.value, code)
      case None => s
      case Some((c, v)) => PhoneState(c, v)
  }

  /** The same component with the corrected switch, which keeps the typed number. */
  function HandleCorrected(s: PhoneState, e: PhoneEvent): (r: PhoneState)
    ensures e.Typed? ==> r == Handle(s, e)
    ensures e.Selected? && FindCountry(e.code).None? ==> r == s
    ensures e.Selected? && FindCountry(e.code).Some? ==>
      r.selected == FindCountry(e.code).value && DisplayNumber(r.selected, r.value) == DisplayNumber(s.selected, s.value)
  {
    match e
    case Typed(_) => Handle(s, e)
    case Selected(code) =>
      match CountryChangeKeepingNumber(s.selected, s.value, code)
      case None => s
      case Some((c, v)) =>
        DisplayRoundTrip(c, DisplayNumber(s.selected, s.value));
        PhoneState(c, v)
  }

  /** The component only ever selects countries from the table. */
  predicate Consistent(s: PhoneState) {
    s.selected in Countries()
  }

  lemma HandleKeepsConsistent(s: PhoneState, e: PhoneEvent)
    requires Consistent(s)
    ensures Consistent(Handle(s, e))
    ensures Consistent(HandleCorrected(s, e))
  {
  }

  /** A table entry has a well-formed dial code. */
  lemma ListedIsWellFormed(c: Country)
    requires c in Countries()
    ensures IsDialCode(c.code)
  {
    CountriesWellFormed();
    var i :| 0 <= i < |Countries()| && Countries()[i] == c;
  }

  /** In the component as written, typing a number and then switching country leaves only the new dial code. */
  lemma TypeThenSwitchClearsNumber(s: PhoneState, input: string, code: string, k: nat)
    requires Consistent(s)
    requires k < |Countries()| && code == Countries()[k].code
    ensures var r := Handle(Handle(s, Typed(input)), Selected(code));
      r.selected.code == code && r.value == code && DisplayNumber(r.selected, r.value) == []
  {
    assert Countries()[k] in Countries();
    ListedIsWellFormed(s.selected);
    CountryChangeDropsNumber(s.selected, input, code);
    DisplayRoundTrip(FindCountry(code).value, []);
    assert code + [] == code;
  }

  /** With the corrected switch, the typed number is still on display after the switch. */
  lemma TypeThenSwitchKeepsNumber(s: PhoneState, input: string, code: string, k: nat)
    requires k < |Countries()| && code == Countries()[k].code
    ensures var r := HandleCorrected(HandleCorrected(s, Typed(input)), Selected(code));
      r.selected.code == code && DisplayNumber(r.selected, r.value) == Take(DigitsOf(input), s.selected.maxLength)
  {
    assert Countries()[k] in Countries();
  }
}

=== FILE: schema.dfy ===
/**
 * Row shapes of the relational schema, with timestamps reduced to integer
 * day numbers. Identity columns are `nat`; user references are `nat` ids.
 */
module Schema {

  datatype User = User(id: nat, username: string)

  /** The three values the `status` column takes. */
  datatype FriendStatus = Pending | Accepted | Blocked

  /** A directed edge `userId -> friendId`. */
  datatype Friendship = Friendship(id: nat, userId: nat, friendId: nat, status: FriendStatus)

  /**
   * A row keyed by (user, day), as both the daily-stat and the health-metric
   * tables are: the per-table columns live in `data`.
   */
  datatype Row<F> = Row(id: nat, userId: nat, day: int, data: F)

  datatype DailyFields = DailyFields(
    focusScore: int,
    wellnessScore: int,
    screenTimeMinutes: int,
    focusSessionsCompleted: int,
    streak: int)

  datatype HealthFields = HealthFields(
    steps: int,
    sleepMinutes: int,
    activeMinutes: int,
    caloriesBurned: int)

  type DailyStat = Row<DailyFields>

  type HealthMetric = Row<HealthFields>

  /** One app-usage interval; `hour` is the hour of day it is booked under. */
  datatype ScreenTimeEntry = ScreenTimeEntry(
    id: nat,
    userId: nat,
    appName: string,
    category: string,
    durationMinutes: int,
    day: int,
    hour: int)
}

=== FILE: screen_time.dfy ===
/**
 * `getUserScreenTimeByHour`: the user's screen-time entries of one day,
 * grouped by hour of day with the minutes of each hour summed.
 */
module ScreenTime {
  import opened Seqs
  import opened Schema

  datatype HourTotal = HourTotal(hour: int, minutes: int)

  predicate OfUserDay(e: ScreenTimeEntry, userId: nat, day: int) {
    e.userId == userId && e.day == day
  }

  /** The `WHERE userId = … AND date = …` of the query. */
  function OnDay(userId: nat, day: int): ScreenTimeEntry -> bool {
    e => OfUserDay(e, userId, day)
  }

  /**
   * `getUserScreenTime`: the entries of that user on that day, in table
   * order, each as often as it occurs in the table.
   */
  function EntriesOfDay(entries: seq<ScreenTimeEntry>, userId: nat, day: int): (r: seq<ScreenTimeEntry>)
    ensures forall e | e in r :: e in entries && OfUserDay(e, userId, day)
    ensures forall e | e in entries && OfUserDay(e, userId, day) :: e in r
    ensures SubseqOf(r, entries)
    ensures forall e :: multiset(r)[e] == if OfUserDay(e, userId, day) then multiset(entries)[e] else 0
  {
    FilterIsSubseq(entries, OnDay(userId, day));
    FilterCounts(entries, OnDay(userId, day));
    Filter(entries, OnDay(userId, day))
  }

  /** The `SUM(durationMinutes)` of the entries booked under hour `h`. */
  function MinutesInHour(es: seq<ScreenTimeEntry>, h: int): int {
    if es == [] then 0
    else
      var last := es[|es| - 1];
      MinutesInHour(es[..|es| - 1], h) + (if last.hour == h then last.durationMinutes else 0)
  }

  /** The hours that occur among `es`. */
  ghost function HoursOf(es: seq<ScreenTimeEntry>): set<int> {
    set e | e in es :: e.hour
  }

  ghost function GroupHours(groups: seq<HourTotal>): set<int> {
    set g | g in groups :: g.hour
  }

  /** One group per distinct hour, each holding that hour's total. */
  ghost predicate GroupsOf(groups: seq<HourTotal>, es: seq<ScreenTimeEntry>) {
    && (forall i, j | 0 <= i < j < |groups| :: groups[i].hour != groups[j].hour)
    && GroupHours(groups) == HoursOf(es)
    && (forall i | 0 <= i < |groups| :: groups[i].minutes == MinutesInHour(es, groups[i].hour))
  }

  /** Folding one more entry into the groups: add to its hour's total, or open a group for the hour. */
  function AddEntry(groups: seq<HourTotal>, e: ScreenTimeEntry): seq<HourTotal> {
    var k := FindHour(groups, e.hour);
    if k >= 0 then groups[k := HourTotal(e.hour, groups[k].minutes + e.durationMinutes)]
    else groups + [HourTotal(e.hour, e.durationMinutes)]
  }

  lemma AddEntryKeepsGroups(groups: seq<HourTotal>, es: seq<ScreenTimeEntry>, e: ScreenTimeEntry)
    requires GroupsOf(groups, es)
    ensures GroupsOf(AddEntry(groups, e), es + [e])
  {
    var es' := es + [e];
    assert es'[..|es'| - 1] == es;
    assert HoursOf(es') == HoursOf(es) + {e.hour};
    var groups' := AddEntry(groups, e);
    var k := FindHour(groups, e.hour);
    if k >= 0 {
      assert groups[k] in groups;
      forall i | 0 <= i < |groups'| ensures groups'[i].minutes == MinutesInHour(es', groups'[i].hour) {
        if i != k {
          assert groups'[i] == groups[i];
          assert groups[i].hour != e.hour;
        }
      }
      assert GroupHours(groups') == GroupHours(groups) by {
        forall h | h in GroupHours(groups) ensures h in GroupHours(groups') {
          var g :| g in groups && g.hour == h;
          var i :| 0 <= i < |groups| && groups[i] == g;
          assert groups'[i].hour == h;
          assert groups'[i] in groups';
        }
        forall h | h in GroupHours(groups') ensures h in GroupHours(groups) {
          var g :| g in groups' && g.hour == h;
          var i :| 0 <= i < |groups'| && groups'[i] == g;
          assert groups[i].hour == h;
          assert groups[i] in groups;
        }
      }
      assert e.hour in HoursOf(es);
    } else {
      assert e.hour !in GroupHours(groups);
      assert GroupHours(groups') == GroupHours(groups) + {e.hour};
      forall i | 0 <= i < |groups'| ensures groups'[i].minutes == MinutesInHour(es', groups'[i].hour) {
        if i < |groups| {
          assert groups'[i] == groups[i];
          assert groups[i] in groups;
        } else {
          assert e.hour !in HoursOf(es);
          MinutesOfAbsentHour(es, e.hour);
        }
      }
    }
  }

  lemma {:induction false} MinutesOfAbsentHour(es: seq<ScreenTimeEntry>, h: int)
    requires h !in HoursOf(es)
    ensures MinutesInHour(es, h) == 0
  {
    if es != [] {
      var init := es[..|es| - 1];
      assert es[|es| - 1] in es;
      assert HoursOf(init) <= HoursOf(es) by {
        forall x | x in HoursOf(init) ensures x in HoursOf(es) {
          var e :| e in init && e.hour == x;
          assert e in es;
        }
      }
      MinutesOfAbsentHour(init, h);
    }
  }

  /** The minutes summed over all groups. */
  function GroupedMinutes(groups: seq<HourTotal>): int {
    if groups == [] then 0 else GroupedMinutes(groups[..|groups| - 1]) + groups[|groups| - 1].minutes
  }

  /** The minutes summed over all entries. */
  function TotalMinutes(es: seq<ScreenTimeEntry>): int {
    if es == [] then 0 else TotalMinutes(es[..|es| - 1]) + es[|es| - 1].durationMinutes
  }

  lemma {:induction false} GroupedMinutesUpdate(groups: seq<HourTotal>, k: nat, g: HourTotal)
    requires k < |groups|
    ensures GroupedMinutes(groups[k := g]) == GroupedMinutes(groups) - groups[k].minutes + g.minutes
  {
    var n := |groups| - 1;
    var groups' := groups[k := g];
    if k < n {
      assert groups'[..n] == groups[..n][k := g];
      GroupedMinutesUpdate(groups[..n], k, g);
    } else {
      assert groups'[..n] == groups[..n];
    }
  }

  /** Folding an entry in adds exactly its minutes: none are lost or counted twice. */
  lemma AddEntryAddsMinutes(groups: seq<HourTotal>, e: ScreenTimeEntry)
    ensures GroupedMinutes(AddEntry(groups, e)) == GroupedMinutes(groups) + e.durationMinutes
  {
    var k := FindHour(groups, e.hour);
    if k >= 0 {
      GroupedMinutesUpdate(groups, k, HourTotal(e.hour, groups[k].minutes + e.durationMinutes));
    } else {
      var groups' := groups + [HourTotal(e.hour, e.durationMinutes)];
      assert groups'[..|groups'| - 1] == groups;
    }
  }

  /** The position of the group for hour `h`, if there is one. */
  function FindHour(groups: seq<HourTotal>, h: int): (r: int)
    ensures -1 <= r < |groups|
    ensures r >= 0 ==> groups[r].hour == h
    ensures r < 0 ==> forall g | g in groups :: g.hour != h
  {
    if groups == [] then -1
    else if groups[|groups| - 1].hour == h then |groups| - 1
    else FindHour(groups[..|groups| - 1], h)
  }

  /** The SQL `GROUP BY hour`, with groups listed in order of first appearance. */
  method ScreenTimeByHour(entries: seq<ScreenTimeEntry>, userId: nat, day: int) returns (groups: seq<HourTotal>)
    ensures GroupsOf(groups, EntriesOfDay(entries, userId, day))
    ensures GroupedMinutes(groups) == TotalMinutes(EntriesOfDay(entries, userId, day))
  {
    var es := EntriesOfDay(entries, userId, day);
    groups := [];
    var n := 0;
    while n < |es|
      invariant n <= |es|
      invariant GroupsOf(groups, es[..n])
      invariant GroupedMinutes(groups) == TotalMinutes(es[..n])
    {
      assert es[..n + 1] == es[..n] + [es[n]];
      assert es[..n + 1][..n] == es[..n];
      AddEntryKeepsGroups(groups, es[..n], es[n]);
      AddEntryAddsMinutes(groups, es[n]);
      groups := AddEntry(groups, es[n]);
      n := n + 1;
    }
    assert es[..n] == es;
  }
}

=== FILE: seqs.dfy ===
/**
 * Order-preserving selection over sequences: the `Array.prototype.filter`
 * the application uses everywhere, with the sub-sequence relation that
 * characterises it independently of how it is computed.
 */
module Seqs {

  predicate Distinct<T(==)>(s: seq<T>) {
    forall i, j | 0 <= i < j < |s| :: s[i] != s[j]
  }

  /** `sub` is `s` with some elements deleted and the rest kept in order. */
  predicate SubseqOf<T(==)>(sub: seq<T>, s: seq<T>)
    decreases |s|
  {
    if sub == [] then true
    else if s == [] then false
    else if sub[0] == s[0] then SubseqOf(sub[1..], s[1..])
    else SubseqOf(sub, s[1..])
  }

  /** `s.filter(p)`: the elements satisfying `p`, in their original order. */
  function Filter<T(==)>(s: seq<T>, p: T -> bool): (r: seq<T>)
    ensures |r| <= |s|
    ensures forall x | x in r :: x in s && p(x)
    ensures forall x | x in s && p(x) :: x in r
  {
    if s == [] then []
    else if p(s[0]) then [s[0]] + Filter(s[1..], p)
    else Filter(s[1..], p)
  }

  /** `n` copies of `s`, one after another. */
  function Repeat<T>(s: seq<T>, n: nat): (r: seq<T>)
    ensures |r| == n * |s|
  {
    if n == 0 then [] else Repeat(s, n - 1) + s
  }

  /** The filter keeps every copy of an element satisfying `p`, and no copy of any other. */
  lemma {:induction false} FilterCount<T>(s: seq<T>, p: T -> bool, x: T)
    ensures multiset(Filter(s, p))[x] == if p(x) then multiset(s)[x] else 0
  {
    if s != [] {
      FilterCount(s[1..], p, x);
      assert s == [s[0]] + s[1..];
    }
  }

  lemma FilterCounts<T>(s: seq<T>, p: T -> bool)
    ensures forall x :: multiset(Filter(s, p))[x] == if p(x) then multiset(s)[x] else 0
  {
    forall x {
      FilterCount(s, p, x);
    }
  }

  /** The filter keeps the relative order of what it keeps. */
  lemma {:induction false} FilterIsSubseq<T>(s: seq<T>, p: T -> bool)
    ensures SubseqOf(Filter(s, p), s)
  {
    if s != [] {
      FilterIsSubseq(s[1..], p);
      var r := Filter(s, p);
      if p(s[0]) {
        assert r[0] == s[0] && r[1..] == Filter(s[1..], p);
      }
    }
  }

  /** Filtering a sequence without repeats introduces none. */
  lemma {:induction false} FilterDistinct<T>(s: seq<T>, p: T -> bool)
    requires Distinct(s)
    ensures Distinct(Filter(s, p))
  {
    if s != [] {
      FilterDistinct(s[1..], p);
      assert s[0] !in s[1..];
    }
  }

  /** The filter drops nothing exactly when every element satisfies `p`. */
  lemma {:induction false} FilterKeepsAll<T>(s: seq<T>, p: T -> bool)
    ensures |Filter(s, p)| == |s| <==> forall x | x in s :: p(x)
  {
    if s != [] {
      FilterKeepsAll(s[1..], p);
      assert s[0] in s;
      assert forall x | x in s[1..] :: x in s;
      assert forall x | x in s :: x == s[0] || x in s[1..];
    }
  }

  /** The filter keeps nothing exactly when no element satisfies `p`. */
  lemma FilterKeepsNone<T>(s: seq<T>, p: T -> bool)
    ensures Filter(s, p) == [] <==> forall x | x in s :: !p(x)
  {
    var r := Filter(s, p);
    if r != [] {
      assert r[0] in r;
    }
  }

  lemma {:induction false} FilterAppend<T>(a: seq<T>, b: seq<T>, p: T -> bool)
    ensures Filter(a + b, p) == Filter(a, p) + Filter(b, p)
  {
    if a == [] {
      assert a + b == b;
    } else {
      var ab := a + b;
      assert ab[0] == a[0] && ab[1..] == a[1..] + b;
      FilterAppend(a[1..], b, p);
    }
  }

  lemma {:induction false} FilterAllKept<T>(s: seq<T>, p: T -> bool)
    requires forall x | x in s :: p(x)
    ensures Filter(s, p) == s
  {
    if s != [] {
      FilterAllKept(s[1..], p);
    }
  }

  lemma {:induction false} SubseqMembers<T>(sub: seq<T>, s: seq<T>)
    requires SubseqOf(sub, s)
    ensures forall x | x in sub :: x in s
    decreases |s|
  {
    if sub != [] && s != [] {
      if sub[0] == s[0] {
        SubseqMembers(sub[1..], s[1..]);
        forall x | x in sub ensures x in s {
          if x != sub[0] {
            assert x in sub[1..];
          }
        }
      } else {
        SubseqMembers(sub, s[1..]);
      }
    }
  }

  /**
   * Within a sequence without repeats, a sub-sequence is determined by the
   * elements it keeps: the filter is the only order-preserving selection of
   * exactly the elements that satisfy the predicate.
   */
  lemma {:induction false} SubseqUnique<T>(a: seq<T>, b: seq<T>, s: seq<T>)
    requires Distinct(s)
    requires SubseqOf(a, s) && SubseqOf(b, s)
    requires forall x | x in a :: x in b
    requires forall x | x in b :: x in a
    ensures a == b
    decreases |s|
  {
    // neither can be empty while the other is not
    if a != [] {
      assert a[0] in a;
    }
    if b != [] {
      assert b[0] in b;
    }
    if a != [] && b != [] {
      var t := s[1..];
      assert Distinct(t);
      assert s[0] !in t;
      if a[0] == s[0] && b[0] == s[0] {
        SubseqMembers(a[1..], t);
        SubseqMembers(b[1..], t);
        forall x | x in a[1..] || x in b[1..] ensures x in a[1..] <==> x in b[1..] {
          if x in a[1..] {
            assert x in a && x != s[0];
            assert x in b;
            assert x != b[0];
          }
          if x in b[1..] {
            assert x in b && x != s[0];
            assert x in a;
            assert x != a[0];
          }
        }
        SubseqUnique(a[1..], b[1..], t);
        assert a == [a[0]] + a[1..];
        assert b == [b[0]] + b[1..];
      } else if a[0] == s[0] {
        // s[0] is kept by `a` only, yet `b` keeps every element `a` keeps
        SubseqMembers(b, t);
      } else if b[0] == s[0] {
        SubseqMembers(a, t);
      } else {
        SubseqUnique(a, b, t);
      }
    }
  }

  /** When `p` holds exactly on the positions [lo, hi), filtering yields that slice. */
  lemma {:induction false} FilterBlock<T>(s: seq<T>, p: T -> bool, lo: nat, hi: nat)
    requires lo <= hi <= |s|
    requires forall i | 0 <= i < |s| :: p(s[i]) <==> lo <= i < hi
    ensures Filter(s, p) == s[lo..hi]
  {
    if hi == 0 {
      forall x | x in s ensures !p(x) {
        var i :| 0 <= i < |s| && s[i] == x;
      }
      FilterKeepsNone(s, p);
    } else if lo > 0 {
      assert !p(s[0]);
      FilterBlock(s[1..], p, lo - 1, hi - 1);
      SliceShift(s, lo, hi);
    } else {
      assert p(s[0]);
      FilterBlock(s[1..], p, 0, hi - 1);
      SliceCons(s, hi);
    }
  }

  lemma SliceShift<T>(s: seq<T>, lo: nat, hi: nat)
    requires 0 < lo <= hi <= |s|
    ensures s[1..][lo - 1..hi - 1] == s[lo..hi]
  {
  }

  lemma SliceCons<T>(s: seq<T>, hi: nat)
    requires 0 < hi <= |s|
    ensures s[..hi] == [s[0]] + s[1..][..hi - 1]
  {
  }
}

=== FILE: streak.dfy ===
/**
 * The daily streak: how many consecutive days, ending today, have a
 * daily-stat row whose focus score reaches the threshold. Timestamps are
 * integer day numbers, so "the date `k` days before today" is `today - k`.
 */
module Streak {
  import opened Seqs
  import opened Schema

  /** The focus score a day needs to count towards the streak. */
  const THRESHOLD := 50

  /** How many of the newest rows the query fetches. */
  const FETCH_LIMIT := 30

  /** Row `k` of the newest-first list keeps the streak alive: it is dated `k` days before today and scores enough. */
  predicate Qualifies(row: DailyStat, today: int, k: int) {
    row.day == today - k && row.data.focusScore >= THRESHOLD
  }

  /**
   * `n` is the length of the longest prefix of `rows` in which row `i` is
   * dated `today - i` and reaches the threshold.
   */
  predicate IsStreak(rows: seq<DailyStat>, today: int, n: nat) {
    && n <= |rows|
    && (forall i | 0 <= i < n :: Qualifies(rows[i], today, i))
    && (n < |rows| ==> !Qualifies(rows[n], today, n))
  }

  /** The `WHERE userId = …` of the query. */
  function OwnedBy(userId: nat): DailyStat -> bool {
    (row: DailyStat) => row.userId == userId
  }

  /** The `ORDER BY date DESC` of the query: no row is dated after an earlier one. */
  predicate NewestFirst(rows: seq<DailyStat>) {
    forall i, j | 0 <= i < j < |rows| :: rows[i].day >= rows[j].day
  }

  function InsertByDay(row: DailyStat, rows: seq<DailyStat>): (r: seq<DailyStat>)
    requires NewestFirst(rows)
    ensures NewestFirst(r)
    ensures multiset(r) == multiset(rows) + multiset{row}
    ensures |r| == |rows| + 1
    ensures r[0] == row || (rows != [] && r[0] == rows[0])
  {
    if rows == [] || row.day >= rows[0].day then [row] + rows
    else
      var tail := InsertByDay(row, rows[1..]);
      assert rows == [rows[0]] + rows[1..];
      [rows[0]] + tail
  }

  /** A newest-first permutation of `rows`; rows of the same date keep no particular order. */
  function SortNewestFirst(rows: seq<DailyStat>): (r: seq<DailyStat>)
    ensures NewestFirst(r)
    ensures multiset(r) == multiset(rows)
  {
    if rows == [] then []
    else
      assert rows == [rows[0]] + rows[1..];
      InsertByDay(rows[0], SortNewestFirst(rows[1..]))
  }

  /**
   * `SELECT * FROM dailyStats WHERE userId = … ORDER BY date DESC`: every
   * row of the user, each as often as the table holds it, newest first.
   */
  function UserRows(table: seq<DailyStat>, userId: nat): (r: seq<DailyStat>)
    ensures NewestFirst(r)
    ensures forall row :: multiset(r)[row] == if row.userId == userId then multiset(table)[row] else 0
  {
    FilterCounts(table, OwnedBy(userId));
    SortNewestFirst(Filter(table, OwnedBy(userId)))
  }

  /** The `.limit(30)` of the query: the newest rows, at most 30 of them. */
  function Fetch(newestFirst: seq<DailyStat>): (r: seq<DailyStat>)
    ensures |r| == if |newestFirst| <= FETCH_LIMIT then |newestFirst| else FETCH_LIMIT
    ensures r == newestFirst[..|r|]
    ensures |newestFirst| <= FETCH_LIMIT ==> r == newestFirst
  {
    if |newestFirst| <= FETCH_LIMIT then newestFirst else newestFirst[..FETCH_LIMIT]
  }

  /** The scan of `getUserStreak` over already-fetched rows, stopping at the first row that breaks the run. */
  method ScanStreak(rows: seq<DailyStat>, today: int) returns (streak: nat)
    ensures IsStreak(rows, today, streak)
  {
    streak := 0;
    while streak < |rows|
      invariant streak <= |rows|
      invariant forall i | 0 <= i < streak :: Qualifies(rows[i], today, i)
    {
      if Qualifies(rows[streak], today, streak) {
        streak := streak + 1;
      } else {
        break;
      }
    }
  }

  /**
   * `getUserStreak` on a snapshot of the daily-stats table: the user's rows
   * are selected, ordered newest first, fetched and scanned.
   */
  method GetUserStreak(table: seq<DailyStat>, userId: nat, today: int) returns (streak: nat)
    ensures IsStreak(Fetch(UserRows(table, userId)), today, streak)
    ensures streak <= FETCH_LIMIT
    ensures (forall row | row in table && row.userId == userId :: !Qualifies(row, today, 0)) ==> streak == 0
    ensures streak > 0 ==> forall row | row in table && row.userId == userId :: row.day <= today
  {
    var all := UserRows(table, userId);
    var rows := Fetch(all);
    if |rows| == 0 {
      return 0;
    }
    streak := ScanStreak(rows, today);
    if streak > 0 {
      StreakStartsToday(table, userId, today, all, rows, streak);
    }
  }

  /**
   * A streak of one or more means the newest row of the user is today's and
   * qualifies, so no row of the user is dated after today.
   */
  lemma StreakStartsToday(table: seq<DailyStat>, userId: nat, today: int,
                          all: seq<DailyStat>, rows: seq<DailyStat>, n: nat)
    requires NewestFirst(all)
    requires forall row :: multiset(all)[row] == if row.userId == userId then multiset(table)[row] else 0
    requires |rows| <= |all| && rows == all[..|rows|]
    requires IsStreak(rows, today, n) && n > 0
    ensures all[0] in table && all[0].userId == userId && Qualifies(all[0], today, 0)
    ensures forall row | row in table && row.userId == userId :: row.day <= today
  {
    assert rows[0] == all[0];
    assert multiset(all)[all[0]] > 0;
    forall row | row in table && row.userId == userId
      ensures row.day <= today
    {
      assert multiset(all)[row] == multiset(table)[row] > 0;
      var j :| 0 <= j < |all| && all[j] == row;
    }
  }

  /** Rows of other users never reach the query, so they cannot change anyone's streak. */
  lemma OtherUsersIgnored(table: seq<DailyStat>, row: DailyStat, userId: nat)
    requires row.userId != userId
    ensures UserRows(table + [row], userId) == UserRows(table, userId)
  {
    var p := OwnedBy(userId);
    FilterAppend(table, [row], p);
    assert !p(row);
    assert Filter([row], p) == [];
    assert Filter(table + [row], p) == Filter(table, p) + [] == Filter(table, p);
  }

  /** At most one length satisfies `IsStreak`, so the scan's result is determined. */
  lemma StreakIsUnique(rows: seq<DailyStat>, today: int, n: nat, m: nat)
    requires IsStreak(rows, today, n) && IsStreak(rows, today, m)
    ensures n == m
  {
  }

  /** A gap or a low score at position `k`, after `k` good days, gives a streak of exactly `k`. */
  lemma BreakAtGivesStreak(rows: seq<DailyStat>, today: int, k: nat, n: nat)
    requires k < |rows|
    requires forall i | 0 <= i < k :: Qualifies(rows[i], today, i)
    requires rows[k].day != today - k || rows[k].data.focusScore < THRESHOLD
    requires IsStreak(rows, today, n)
    ensures n == k
  {
    assert IsStreak(rows, today, k);
    StreakIsUnique(rows, today, n, k);
  }

  /** Rows after the one that broke the run are never looked at: replacing them changes nothing. */
  lemma StreakIgnoresTail(rows: seq<DailyStat>, other: seq<DailyStat>, today: int, n: nat)
    requires IsStreak(rows, today, n)
    requires n < |rows|
    requires |other| > n && other[..n + 1] == rows[..n + 1]
    ensures IsStreak(other, today, n)
  {
    assert forall i | 0 <= i <= n :: other[i] == other[..n + 1][i] == rows[i];
  }

  /** However long the run of good days, the fetched window caps the streak at 30. */
  lemma StreakCappedByWindow(newestFirst: seq<DailyStat>, today: int, n: nat)
    requires |newestFirst| > FETCH_LIMIT
    requires forall i | 0 <= i < |newestFirst| :: Qualifies(newestFirst[i], today, i)
    requires IsStreak(Fetch(newestFirst), today, n)
    ensures n == FETCH_LIMIT
  {
  }

  /** Today and yesterday qualify, the day before scores 40: the streak is 2. */
  lemma ExampleStreakOfTwo(today: int, n: nat)
    requires IsStreak([
      Row(1, 7, today, DailyFields(80, 0, 0, 0, 0)),
      Row(2, 7, today - 1, DailyFields(60, 0, 0, 0, 0)),
      Row(3, 7, today - 2, DailyFields(40, 0, 0, 0, 0))], today, n)
    ensures n == 2
  {
    var rows := [
      Row(1, 7, today, DailyFields(80, 0, 0, 0, 0)),
      Row(2, 7, today - 1, DailyFields(60, 0, 0, 0, 0)),
      Row(3, 7, today - 2, DailyFields(40, 0, 0, 0, 0))];
    BreakAtGivesStreak(rows, today, 2, n);
  }
}

=== FILE: upsert.dfy ===
/**
 * `createOrUpdateDailyStat` and `createOrUpdateHealthMetric`: both look up
 * the user's row for the day and update it in place if there is one, or
 * insert a new row otherwise. The two tables share the (user, day) row
 * shape, so the operation is written once over `Row<F>`.
 */
module Upsert {
  import opened Wrappers
  import opened Schema

  /** A table's rows and the next value of its identity column. */
  datatype Table<F> = Table(rows: seq<Row<F>>, nextId: nat)

  /** The values a caller submits: whose row, for which day, and its columns. */
  datatype Submission<F> = Submission(userId: nat, day: int, data: F)

  predicate SameKey<F>(r: Row<F>, userId: nat, day: int) {
    r.userId == userId && r.day == day
  }

  /** `getUserDailyStat` / `getUserHealthMetric`: the position of the first row of that user and day. */
  function FindRow<F>(rows: seq<Row<F>>, userId: nat, day: int): (r: Option<nat>)
    ensures r.Some? ==> r.value < |rows| && SameKey(rows[r.value], userId, day)
    ensures r.Some? ==> forall i | 0 <= i < r.value :: !SameKey(rows[i], userId, day)
    ensures r.None? ==> forall i | 0 <= i < |rows| :: !SameKey(rows[i], userId, day)
  {
    if rows == [] then None
    else if SameKey(rows[0], userId, day) then Some(0)
    else match FindRow(rows[1..], userId, day)
      case None => None
      case Some(i) => Some(i + 1)
  }

  /** Identity values are below the counter and distinct. */
  predicate IdsFresh<F>(t: Table<F>) {
    && (forall i | 0 <= i < |t.rows| :: t.rows[i].id < t.nextId)
    && (forall i, j | 0 <= i < j < |t.rows| :: t.rows[i].id != t.rows[j].id)
  }

  /** At most one row per (user, day). */
  predicate KeysUnique<F>(t: Table<F>) {
    forall i, j | 0 <= i < j < |t.rows| :: !(t.rows[i].userId == t.rows[j].userId && t.rows[i].day == t.rows[j].day)
  }

  /** The upsert: the new table and the row it returns. */
  function CreateOrUpdate<F>(t: Table<F>, s: Submission<F>): (res: (Table<F>, Row<F>))
    // an existing row is overwritten where it stands and keeps its id
    ensures FindRow(t.rows, s.userId, s.day).Some? ==>
      var k := FindRow(t.rows, s.userId, s.day).value;
      && res.0.rows == t.rows[k := Row(t.rows[k].id, s.userId, s.day, s.data)]
      && res.0.nextId == t.nextId
      && res.1 == res.0.rows[k]
    // otherwise exactly one row is appended under a fresh id
    ensures FindRow(t.rows, s.userId, s.day).None? ==>
      && res.0.rows == t.rows + [Row(t.nextId, s.userId, s.day, s.data)]
      && res.0.nextId == t.nextId + 1
      && res.1 == Row(t.nextId, s.userId, s.day, s.data)
    // afterwards the (user, day) row holds the submitted columns
    ensures FindRow(res.0.rows, s.userId, s.day).Some?
    ensures res.1 == res.0.rows[FindRow(res.0.rows, s.userId, s.day).value]
    ensures res.1.data == s.data
  {
    match FindRow(t.rows, s.userId, s.day)
    case Some(k) =>
      var updated := Row(t.rows[k].id, s.userId, s.day, s.data);
      (Table(t.rows[k := updated], t.nextId), updated)
    case None =>
      var inserted := Row(t.nextId, s.userId, s.day, s.data);
      FindAppended(t.rows, inserted);
      (Table(t.rows + [inserted], t.nextId + 1), inserted)
  }

  /** `createOrUpdateDailyStat`: the upsert on the daily-stat table. */
  function CreateOrUpdateDailyStat(t: Table<DailyFields>, s: Submission<DailyFields>): (res: (Table<DailyFields>, DailyStat))
    ensures res.1.userId == s.userId && res.1.day == s.day && res.1.data == s.data
    ensures res.1 in res.0.rows
    ensures |t.rows| <= |res.0.rows| <= |t.rows| + 1
  {
    CreateOrUpdate(t, s)
  }

  /** `createOrUpdateHealthMetric`: the same upsert on the health-metric table. */
  function CreateOrUpdateHealthMetric(t: Table<HealthFields>, s: Submission<HealthFields>): (res: (Table<HealthFields>, HealthMetric))
    ensures res.1.userId == s.userId && res.1.day == s.day && res.1.data == s.data
    ensures res.1 in res.0.rows
    ensures |t.rows| <= |res.0.rows| <= |t.rows| + 1
  {
    CreateOrUpdate(t, s)
  }

  lemma FindAppended<F>(rows: seq<Row<F>>, r: Row<F>)
    requires FindRow(rows, r.userId, r.day).None?
    ensures FindRow(rows + [r], r.userId, r.day) == Some(|rows|)
  {
    var s := FindRow(rows + [r], r.userId, r.day);
    assert (rows + [r])[|rows|] == r;
    assert forall i | 0 <= i < |rows| :: (rows + [r])[i] == rows[i];
  }

  /** Rows of other users or other days are untouched, and the row count grows by at most one. */
  lemma OtherRowsUntouched<F>(t: Table<F>, s: Submission<F>)
    ensures var t' := CreateOrUpdate(t, s).0;
      && |t.rows| <= |t'.rows| <= |t.rows| + 1
      && forall i | 0 <= i < |t.rows| && !SameKey(t.rows[i], s.userId, s.day) :: t'.rows[i] == t.rows[i]
  {
  }

  /** The upsert keeps identity values fresh and distinct, and keeps (user, day) unique. */
  lemma UpsertPreservesInvariants<F>(t: Table<F>, s: Submission<F>)
    requires IdsFresh(t) && KeysUnique(t)
    ensures IdsFresh(CreateOrUpdate(t, s).0)
    ensures KeysUnique(CreateOrUpdate(t, s).0)
  {
    var t' := CreateOrUpdate(t, s).0;
    match FindRow(t.rows, s.userId, s.day)
    case Some(k) =>
      forall i, j | 0 <= i < j < |t'.rows|
        ensures t'.rows[i].id != t'.rows[j].id
        ensures !(t'.rows[i].userId == t'.rows[j].userId && t'.rows[i].day == t'.rows[j].day)
      {
        assert t'.rows[i].id == t.rows[i].id && t'.rows[j].id == t.rows[j].id;
        if i != k && j != k {
          assert t'.rows[i] == t.rows[i] && t'.rows[j] == t.rows[j];
        }
      }
    case None =>
  }

  /** Submitting the same values twice leaves the table as the first submission did. */
  lemma UpsertIdempotent<F>(t: Table<F>, s: Submission<F>)
    ensures var t1 := CreateOrUpdate(t, s).0;
      CreateOrUpdate(t1, s).0 == t1
  {
    var t1 := CreateOrUpdate(t, s).0;
    var k := FindRow(t1.rows, s.userId, s.day).value;
    match FindRow(t.rows, s.userId, s.day)
    case Some(k0) =>
      assert k == k0;
    case None =>
      FindAppended(t.rows, Row(t.nextId, s.userId, s.day, s.data));
  }
}

=== FILE: wrappers.dfy ===
/** The Option type used for lookups that may miss. */
module Wrappers {

  datatype Option<+T> = None | Some(value: T)

}
